=== FILE: README.md ===
# Portfolio core logic, modelled and verified in Dafny

This project models the deterministic core of a multi-project portfolio repository, and proves properties of that model:

- **Shopping-list server, accounts.** The `register`, `login` and `me` routes run over a `users` collection. bcrypt and JWT are supplied as function-valued parameters (`Crypto.Bcrypt`, `Crypto.Jwt`). The properties the server relies on are predicates that the lemmas take as preconditions: a password matches its own hash (`Crypto.Matches`); only a password with the same bcrypt key matches it (`Crypto.Discriminates`, collision resistance idealised; the key, `Crypto.KeyOf`, is what bcryptjs derives under a `$2a$`/`$2b$` salt: the UTF-8 bytes with a NUL appended, repeated cyclically to fill 72 bytes); and a signed token verifies to its payload (`Crypto.RoundTrips`).
- **Bearer gate.** The shopping-list `auth` middleware splits the `Authorization` header on spaces. It then either answers one of three 401 replies or passes the user id on. The accounts routes run behind a middleware of their own (server/middleware/auth.js), which is not part of this model; `AuthRoutes.Me` runs behind the shopping-list gate in its place.
- **Item routes, unscoped.** The first version of the routes: list, get, create, `$set` patch and delete, over one ordered collection with no owner filtering.
- **In-memory scoped backend.** The client tests run against this backend. It keeps items per user, uses tokens of the form `token-<id>`, and scopes every item request to the caller's own list.
- **Expense tracker.** Form validation, income/expense tagging, append-unless-loading persistence, remove-all-matching deletion, edit and reload. Browser storage is an `Option<seq<Transaction>>` value.
- **Playback-speed calculator.** Input validation, the h/m/s split, `formatTime`, and the borrow/carry arithmetic of `calculateNewTimeDiff`.
- **End-to-end reset script.** `requireEnv`, the default database name, and the refusal of production-looking names.

Shared modules:

- `Options`: `Option`.
- `Text`: `split`, `startsWith`, `replace`, `includes`, ASCII `toLowerCase`, `trim`.
- `Decimal`: number to decimal text.
- `Json`: values, documents, truthiness, `??`, spread, projection, `findIndex`.
- `Seqs`: first-match search (`find`, `findIndex`, `findOne`) and `splice(i, 1)` on any list; the lookups by email, by user id and by document id are all this one search.
- `Http`: replies.

Where the two copies of the register handler differ only in line numbers, they are modelled once by `AuthRoutes.Register` (`server/routes/auth.js:13-43`, `shopping-list/server/routes/auth.js:9-38`).

The routes file that applies ownership scoping on the server is not part of this model. The scoped behaviour is modelled from the in-memory backend. Get-by-id is modelled from the server tests, because the in-memory backend has no such handler.

## Model

| member | source | states |
|---|---|---|
| `BearerGate.BearerToken` | shopping-list/server/middleware/auth.js:12-16 | A header passes the parse only with scheme exactly `Bearer` and a non-empty second piece; the token it yields is non-empty and has no spaces |
| `BearerGate.Authenticate` | shopping-list/server/middleware/auth.js:5-25 | Every rejection is a 401. The reply is "Authorization header missing" exactly when the header is absent or empty, and "Invalid Authorization header" exactly when it is present but does not parse. A parsed token the verifier refuses is "Invalid or expired token", and a parsed token it accepts passes on exactly the payload's user id. Exactly one of reject or pass-on occurs |
| `BearerGate.BearerTokenOfHeader` | shopping-list/server/middleware/auth.js:12 | `Bearer <token>` followed by nothing or by a space-led remainder yields exactly `<token>`; later pieces are ignored |
| `BearerGate.BearerTokenShape` | shopping-list/server/middleware/auth.js:14 | Conversely, every accepted header starts with `Bearer `, then the token, then ends or continues with a space |
| `BearerGate.AuthenticateSignedToken` | shopping-list/server/middleware/auth.js:18-21 | A header carrying a token the server signed passes with the signed user id |
| `BearerGate.AuthenticateNeedsBearerPrefix` | shopping-list/server/middleware/auth.js:12-16 | A non-empty header not starting with `Bearer ` (case-sensitive) is always "Invalid Authorization header". The accounts server's middleware test (server/tests/auth.middleware.test.js:27-33) checks only the 401 status for such a header |
| `AuthRoutes.Register` | server/routes/auth.js:13-43 | 400 exactly on a falsy email or password. 409 exactly when the email is already stored. On 201, exactly one record `{email, hash(password), createdAt}` is appended and no token is returned. Every non-201 reply leaves the store unchanged. A store failure, or a password bcrypt refuses (not a string), is a 500. A truthy new email with a string password always gives the 201 |
| `AuthRoutes.Login` | server/routes/auth.js:46-77 | An unknown email and a wrong password give the identical 401 "Invalid credentials". Success returns a body holding only the token, signed over the matched user's id with a one-day lifetime |
| `AuthRoutes.Me` | server/routes/auth.js:80-95 | The gate's 401 when it refuses (the shopping-list gate standing in for the accounts middleware). 404 exactly when the token's id names no user. Otherwise the stored user; an object reply never carries `passwordHash` |
| `AuthRoutes.FindByEmail` | server/routes/auth.js:51 | `findOne({email})` returns the first stored user with that email, and nothing exactly when none has it |
| `AuthRoutes.FindById` | server/routes/auth.js:83-86 | `findOne({_id})` returns the first stored user with that id, and nothing exactly when none has it |
| `AuthRoutes.RegisterPreservesValid` | server/routes/auth.js:25-36 | Given a fresh database id, registration keeps emails unique, ids unique and emails truthy: at most one user per email |
| `AuthRoutes.RegisterDuplicateRefused` | shopping-list/server/routes/auth.js:21-24 | Registering an email already stored is a 409 that inserts nothing |
| `AuthRoutes.RegisterLoginMe` | server/tests/auth.routes.test.js:20-132 | Register, then login, then `/me` with the returned token yields the new user's id, email and creation time and no hash; any password whose bcrypt key differs is the generic 401 |
| `Crypto.KeyOf` | server/routes/auth.js:57-64 | The 72-byte key bcrypt compares: a password of 72 UTF-8 bytes or more is cut to its first 72; a shorter one shows its bytes followed by a NUL |
| `Crypto.ShortAsciiKeysDiffer` | server/routes/auth.js:57-64 | Distinct NUL-free ASCII passwords of at most 72 characters have distinct bcrypt keys, so the wrong-password 401 applies to them |
| `Crypto.LongPasswordsCollide` | server/routes/auth.js:57-64 | Two passwords that differ only after 72 bytes have the same key, so one logs in for the other |
| `Crypto.NulRepetitionCollides` | server/routes/auth.js:57-64 | The appended NUL and the cyclic repetition give "ab" and "ab\0ab" the same key, so one logs in for the other |
| `ShopItemRoutes.ListItems` | shopping-list/server/routes/shopItem.js:13-17 | Every document of the collection, in order, with no filtering |
| `ShopItemRoutes.GetById` | shopping-list/server/routes/shopItem.js:20-27 | As written: the matching document, or the text "Not found", always with status 200 |
| `ShopItemRoutes.GetByIdIntended` | shopping-list/server/routes/shopItem.js:25 | As intended: 404 "Not found" exactly when no document has the id; a 200 carries a stored document with that id |
| `ShopItemRoutes.GetByIdMissingIsNot404` | shopping-list/server/routes/shopItem.js:25-26 | For a missing id, the handler as written sends 200 where 404 was meant |
| `ShopItemRoutes.NewDocument` | shopping-list/server/routes/shopItem.js:32-37 | The stored document has exactly `_id`, `name`, `amount`, `notes` and `isChecked`, copied from the body; an absent key is stored as null; other body keys are dropped |
| `ShopItemRoutes.Create` | shopping-list/server/routes/shopItem.js:30-45 | Appends exactly the new document and replies with the insert result, or replies 500 and inserts nothing |
| `ShopItemRoutes.Patch` | shopping-list/server/routes/shopItem.js:48-71 | 404 "Item not found" exactly when no document matches, and then nothing changes. A failure up to `updateOne`, or a body naming `_id` on a matched document, is 500 "Error updating item" with nothing changed. Otherwise a matched document is always updated, and the reply is 200, or the same 500 when the read-back `findOne` fails after the update landed. On 200, only the matched document changes: its body keys are overwritten and every other key is kept. The reply is the document after the update |
| `ShopItemRoutes.Delete` | shopping-list/server/routes/shopItem.js:74-86 | Removes the first document with that id and reports a count of 1, or 0 when none matches; there is no 404 branch |
| `ShopItemRoutes.CreateThenGet` | server/tests/shopItem.routes.test.js:86-114 | With a fresh id, ids stay unique and a lookup of the new id returns exactly the created document |
| `ShopItemRoutes.PatchReadFaultLandsUpdate` | shopping-list/server/routes/shopItem.js:57-69 | A failed read-back answers 500 yet leaves exactly the collection a successful patch leaves; it differs from the original exactly when some body key is new or changes a value |
| `ShopItemRoutes.PatchPreservesUniqueIds` | shopping-list/server/routes/shopItem.js:50-57 | A patch never breaks id uniqueness, whichever store call fails |
| `ShopItemRoutes.DeleteRemovesOnlyThatId` | shopping-list/server/routes/shopItem.js:76-81 | With unique ids, a delete keeps exactly the documents without that id, and a repeated delete reports 0 |
| `MockBackend.UserIdFromHeader` | client/src/test/msw/handlers.js:24-33 | Yields an id exactly when the header is present and non-empty and its second space-separated piece starts with `token-`; that piece is then `token-` followed by the id, and the id never contains a space |
| `MockBackend.UserIdFromTokenHeader` | client/src/test/msw/handlers.js:27-32 | Any header whose second piece is `token-<id>` yields `<id>`, whatever the first piece (the scheme is never checked) and whatever follows |
| `MockBackend.Caller` | client/src/test/msw/handlers.js:102-105 | A caller exactly when the header's second space-separated piece is `token-` followed by a non-empty id, which is the caller; `if (!userId)` turns away the empty id |
| `MockBackend.FindUserById` | client/src/test/msw/handlers.js:107 | `users.find` by `_id`: the first match, and nothing exactly when no user has that id |
| `MockBackend.FindUserByEmail` | client/src/test/msw/handlers.js:61 | `users.find` by email: the first match, and nothing exactly when no user has it (an absent body key matches no one) |
| `MockBackend.Login` | client/src/test/msw/handlers.js:57-69 | 200 exactly when a user has the email and the same password, with token `token-<id>`; otherwise the single 401 "Invalid credentials" |
| `MockBackend.Register` | client/src/test/msw/handlers.js:72-98 | 400 exactly on a falsy field. 409 exactly on a known email. Otherwise always 201, and exactly one user `user-<n+1>` is appended and the empty item list is set for that id. Non-201 replies change nothing |
| `MockBackend.Me` | client/src/test/msw/handlers.js:101-117 | 401 exactly without a usable token, 404 exactly for an unknown id, and 200 for every caller whose id names a stored user, with id, email and the current time, never the password |
| `MockBackend.ListItems` | client/src/test/msw/handlers.js:122-129 | The caller's own list, or `[]` when the caller has none |
| `MockBackend.GetItem` | server/tests/shopItem.routes.test.js:118-178 | 404 "Not found" exactly when the caller's own list has no item with that id; otherwise 200 with exactly the first of the caller's items carrying that id |
| `MockBackend.NewItem` | client/src/test/msw/handlers.js:140-147 | Exactly the keys `_id`, `name`, `amount`, `notes`, `isChecked` and `userId`. Absent or null fields default to `""`. `isChecked` is the truthiness of the body value. `userId` is the caller |
| `MockBackend.CreateItem` | client/src/test/msw/handlers.js:132-154 | Appends the new item to the caller's list only; users and every other user's list are unchanged; 201 with its id |
| `MockBackend.PatchItem` | client/src/test/msw/handlers.js:157-174 | Searches only the caller's list. 404 "Item not found" exactly on no match, changing nothing. Otherwise the match becomes `{...old, ...body}` and is returned. No other item or user changes |
| `MockBackend.DeleteItem` | client/src/test/msw/handlers.js:177-193 | Searches only the caller's list. 404 exactly on no match, changing nothing. Otherwise exactly that element is spliced out, order is kept, and the reply is `deletedCount: 1`. No other list changes |
| `MockBackend.CanonicalIdsDistinct` | client/src/test/msw/handlers.js:88-93 | Ids of the form `user-<i+1>` are pairwise distinct |
| `MockBackend.RegisterPreservesValid` | client/src/test/msw/handlers.js:83-94 | The seeded state is valid, and registration keeps canonical ids and unique emails |
| `MockBackend.RepliesDependOnOwnListOnly` | server/tests/shopItem.routes.test.js:39-82 | Two states that agree on the caller's list give the caller identical list, get, patch and delete replies, however other users' items differ |
| `MockBackend.ForeignItemIsNotFound` | server/tests/shopItem.routes.test.js:282-304 | An id absent from the caller's list, including another user's item, gets exactly the not-found reply, and the state is unchanged |
| `MockBackend.RegisterLoginUse` | client/src/test/msw/handlers.js:72-129 | Register a new email, log in, then `/me` and list with the token: the new user is named and the new list is empty |
| `MockBackend.CreateItemThenGet` | client/src/test/msw/handlers.js:122-154 | Creating under an id the caller's list does not yet hold: the caller's list then ends with the new item, and a lookup of its id returns exactly that item |
| `ExpenseTracker.TagOf` | expense_tracker/script.js:59 | The tag is `"+ "` exactly when the category is "Income", and `"- "` exactly otherwise |
| `ExpenseTracker.AddTransaction` | expense_tracker/script.js:58-101 | The row is always appended. Unless loading, exactly one transaction is appended to the end of the stored list. When loading, storage is untouched |
| `ExpenseTracker.RemoveMatching` | expense_tracker/script.js:117-121 | Keeps exactly the entries not equal to the target on description, amount and category, so every duplicate goes |
| `ExpenseTracker.RemoveTransaction` | expense_tracker/script.js:114-124 | The stored list afterwards holds exactly the previously stored entries that do not match |
| `ExpenseTracker.Submit` | expense_tracker/script.js:33-51 | Alert, with nothing changed, exactly when the trimmed description is empty or the amount is NaN or not above 0. Otherwise the trimmed transaction is stored and shown, and description and amount are cleared |
| `ExpenseTracker.ClickDelete` | expense_tracker/script.js:96-100 | That one row leaves the table; storage loses every matching entry |
| `ExpenseTracker.ClickEdit` | expense_tracker/script.js:90-112 | Same effect on rows and storage as delete; the form is filled with the row's values |
| `ExpenseTracker.LoadTransactions` | expense_tracker/script.js:126-135 | One row per stored entry, in order, tag recomputed from the category; storage unchanged |
| `ExpenseTracker.ClearAll` | expense_tracker/script.js:23-25 | Storage becomes the empty list; the submission reloads the page, whose table, rebuilt from storage, is empty |
| `ExpenseTracker.ClearAllThenSubmit` | expense_tracker/script.js:23-25 | After a clear-all, the next accepted entry is the only one stored and shown |
| `ExpenseTracker.RemoveMatchingAppend` | expense_tracker/script.js:117 | The filter distributes over concatenation, so survivors keep their order |
| `ExpenseTracker.RemoveMatchingSingle` | expense_tracker/script.js:118-120 | On one entry the filter drops it exactly when it matches |
| `ExpenseTracker.RemoveIgnoresTag` | expense_tracker/script.js:118-120 | Matching ignores the tag |
| `ExpenseTracker.DeleteRemovesAllDuplicates` | expense_tracker/script.js:114-124 | Deleting one of two equal rows leaves the other on screen while no matching entry stays stored |
| `ExpenseTracker.SubmittedDescriptionTrimmed` | expense_tracker/script.js:36 | A stored description is already trimmed and non-empty |
| `ExpenseTracker.EditThenSubmit` | expense_tracker/script.js:105-112 | Edit then submit unchanged moves the entry, with its duplicates collapsed into one, to the end of storage and of the table |
| `PlaybackSpeed.Decompose` | playback_speed_calculator/script.js:20-22 | Minutes and seconds are below 60, no part is negative, and the parts add up to the total |
| `PlaybackSpeed.DecomposeUnique` | playback_speed_calculator/script.js:20-22 | The split is the only one with minutes and seconds in range |
| `PlaybackSpeed.FormatTime` | playback_speed_calculator/script.js:74-80 | The text is empty exactly when all three parts are 0 |
| `PlaybackSpeed.FormatTimeShape` | playback_speed_calculator/script.js:74-80 | The text starts with `"<h> hours "` when h is not 0, else with `"<m> minutes"`. It ends with `" <s> seconds"` when s is not 0, else with the minutes text |
| `PlaybackSpeed.FormatTimeAllParts` | playback_speed_calculator/script.js:74-80 | With all three parts non-zero the text is `"<h> hours <m> minutes <s> seconds"` |
| `PlaybackSpeed.PreBorrow` | playback_speed_calculator/script.js:32-39 | The two borrows keep the length. Seconds stay non-negative. Minutes reach -1 only together with 60 seconds |
| `PlaybackSpeed.Normalise` | playback_speed_calculator/script.js:40-47 | Keeps the length, leaves seconds and minutes below 60, and keeps them non-negative on the inputs the borrows produce |
| `PlaybackSpeed.NormaliseLoops` | playback_speed_calculator/script.js:40-47 | The two while loops terminate, end with seconds and minutes below 60, and compute `Normalise` |
| `PlaybackSpeed.NormalisedOriginal` | playback_speed_calculator/script.js:32-47 | Borrows and loops on a valid input end at the standard split of the original length |
| `PlaybackSpeed.Difference` | playback_speed_calculator/script.js:51-60 | Original minus new when faster, new minus original otherwise, as lengths |
| `PlaybackSpeed.CalculateNewTimeDiff` | playback_speed_calculator/script.js:31-72 | As written: the length of the result is the signed difference, and seconds are in range; minutes are only guaranteed between -1 and 59 |
| `PlaybackSpeed.TimeDiff` | playback_speed_calculator/script.js:62-69 | Borrowing seconds first: the signed difference, with minutes and seconds in range, equal to the standard split whenever it is not negative |
| `PlaybackSpeed.AsWrittenAgreesInRange` | playback_speed_calculator/script.js:62-69 | The two borrow orders differ only where the as-written one leaves minutes at -1 |
| `PlaybackSpeed.NewLength` | playback_speed_calculator/script.js:18-19 | The new whole-second length is the original divided by the multiplier, rounded down; not longer when faster, not shorter otherwise |
| `PlaybackSpeed.Convert` | playback_speed_calculator/script.js:8-29 | The length alert exactly on a zero sum or a negative part. The speed alert exactly when the length passes and no speed is chosen. Otherwise the new length's split and the split of the (non-negative) difference, with their texts |
| `PlaybackSpeed.BorrowOrderCounterexample` | playback_speed_calculator/script.js:62-69 | 1 h 59 min at speed 2: as written the difference reads "1 hours -1 minutes 30 seconds"; borrowing seconds first gives 59 min 30 s |
| `ResetDb.RequireEnv` | e2e/utils/reset-db.mjs:3-10 | Fails exactly when the variable is unset or empty, otherwise returns its value unchanged |
| `ResetDb.DbName` | e2e/utils/reset-db.mjs:15 | The variable's value when set and non-empty, else "shopping_list_test_e2e" |
| `ResetDb.Start` | e2e/utils/reset-db.mjs:12-32 | The URI is checked first. Refusal happens exactly when the URI is present and the name looks forbidden. Proceeding implies a non-empty URI and an accepted name |
| `ResetDb.LooksForbidden` | e2e/utils/reset-db.mjs:21-25 | A name is refused exactly when it is "main", contains "prod" in any case, or is "shopping_list" in any case |
| `ResetDb.CaseBlindRefusals` | e2e/utils/reset-db.mjs:24-25 | "shopping_list" in any case, or any name containing "prod" in any case, is refused |
| `ResetDb.DefaultAccepted` | e2e/utils/reset-db.mjs:15-25 | With only the URI set, the script proceeds on "shopping_list_test_e2e" |
| `ResetDb.MainIsCaseSensitive` | e2e/utils/reset-db.mjs:21-23 | The exact-name list is case-sensitive: "main" is refused, "Main" is not |
| `Text.Split` | shopping-list/server/middleware/auth.js:12 | `split(" ")`: at least one piece, none containing the separator, and joining them back gives the input |
| `Text.SplitJoin` | client/src/test/msw/handlers.js:27 | Splitting the join of separator-free pieces returns those pieces |
| `Text.ReplaceFirst` | client/src/test/msw/handlers.js:32 | With the pattern at the start, only that occurrence is replaced; with no occurrence, the text is unchanged |
| `Text.ToLower` | e2e/utils/reset-db.mjs:24-25 | Same length, each ASCII upper-case letter lowered, everything else kept |
| `Text.Trim` | expense_tracker/script.js:36 | The result neither starts nor ends with whitespace; it is a contiguous part of the input, and everything cut off is whitespace |
| `Text.TrimIdempotent` | expense_tracker/script.js:36 | Trimming twice is trimming once |
| `Text.TrimEmptyIffBlank` | expense_tracker/script.js:41 | The trimmed text is empty exactly when the input is all whitespace |
| `Decimal.DigitsValueOfNatToString` | client/src/test/msw/handlers.js:89 | Reading back the decimal text of a number gives the number |
| `Json.Spread` | client/src/test/msw/handlers.js:172 | `{...a, ...b}` has the keys of both, `b`'s values winning and `a`'s kept elsewhere |
| `Json.Omit` | server/routes/auth.js:83-86 | The projection drops exactly the one key and keeps every other value |
| `Json.OrDefault` | client/src/test/msw/handlers.js:142-144 | `??` replaces only absent and null values |
| `Json.FindIndex` | client/src/test/msw/handlers.js:167 | The first document with that id, and none exactly when no document has it |
| `Seqs.FindFirst` | client/src/test/msw/handlers.js:167 | The position of the first element satisfying the test: it satisfies it, no earlier one does, and nothing is found exactly when no element does |
| `Seqs.RemoveAt` | client/src/test/msw/handlers.js:191 | `splice(i, 1)` removes exactly position `i` and shifts the rest down by one |

## Left out

- `AuthRoutes.Me` is guarded by `BearerGate.Authenticate`, the shopping-list middleware, because the accounts server's own middleware (server/middleware/auth.js) is not part of this model. Its 401 messages are assumed to be the shopping-list gate's.
- `ShopItemRoutes.Patch`: a 500 does not imply an unchanged collection. When the read-back after `updateOne` fails, the update has already landed.
- Hashing and signing are parameters of the model, not code. bcrypt's salt randomness and the JWT expiry clock are inside those parameters. The token's one-day lifetime is recorded in the claims, but expiry itself is not modelled.
- MongoDB connection and database selection are left out because they are I/O. `ObjectId` parsing is left out too: a malformed id throws, which gives a 500 in the routes with a `try` and no reply at all in get-by-id. Ids are compared as strings.
- JSON values are scalars only (no nested objects or arrays), and numbers are integers. Dotted and `$`-prefixed `$set` keys are not modelled.
- The clock is a parameter: `createdAt` in both backends, and `Date.now()` in the in-memory backend's item id.
- The route handler that scopes items to their owner on the server is not part of this model. The in-memory backend and the server tests stand in for it.
- `ShopItemRoutes.Create` reports status 200. The handler calls `.status(204)` after `send`, so that status is never sent.
- `Text.ToLower` lowers ASCII letters only, not the rest of Unicode.
- Expense-tracker amounts are reals, not doubles. `parseFloat` is modelled as its outcome: a number or NaN. The text parsed back from a filled form is assumed to give the same amount.
- `updateSummary`, `showNotification`, dark mode, the `.toFixed(2)` rendering and the DOM are left out: they are floating-point display and UI. The clear-all form also reloads the page.
- `ExpenseTracker.ClearAll`: the form the reloaded page shows is a parameter, because browsers differ in whether they restore form fields on reload.
- Playback inputs are whole numbers, so fractional entries are not modelled. The multiplier is an exact ratio: the floating-point division and `Math.floor` of the source are modelled as rounding down.
- The percentages and `displayResults` are left out: they are floating-point and DOM.
- `PlaybackSpeed.Convert` shows the difference as computed with the corrected borrow order (`TimeDiff`). The as-written order is `CalculateNewTimeDiff`; see Findings.
- `MockBackend.Register` overwrites any list already kept under the new id, as the source does. Items created earlier with a token for a not-yet-registered id are lost.
- `MockBackend.OwnList` treats every caller id as an ordinary key. In the source `itemsByUser` is a plain object, so ids such as `constructor` or `__proto__` reach inherited members: a create under `token-constructor` throws and is answered 500, and a list under it does not return `[]`. The model answers 201 and `[]` for these ids, as for any other id; JavaScript's prototype chain is not modelled.
- `MockBackend.PatchItem` can overwrite `_id` and `userId` through the body, as the source allows. So no "items carry their owner's id" invariant is claimed.
- The React client, the knitting-pattern converter, the test harnesses and the server start-up wiring are left out: they are UI, foreign libraries and configuration.

## Findings

| source | as written | input that shows it | evidently intended | confidence | as-written member | corrected member |
|---|---|---|---|---|---|---|
| shopping-list/server/routes/shopItem.js:25 | `res.send("Not found").status(404)` sets the status after the reply is sent, so 200 goes out | GET of an id that no document has | 404 "Not found" | high, not executed | `ShopItemRoutes.GetById` (`ShopItemRoutes.GetByIdMissingIsNot404`) | `ShopItemRoutes.GetByIdIntended` |
| playback_speed_calculator/script.js:62-69 | A negative minutes difference is borrowed before negative seconds, and the seconds' borrow can then leave minutes at -1 | 1 hour 59 minutes 0 seconds at speed 2: "1 hours -1 minutes 30 seconds" | Borrow for seconds first, giving "59 minutes 30 seconds" | high, not executed | `PlaybackSpeed.CalculateNewTimeDiff` (`PlaybackSpeed.BorrowOrderCounterexample`) | `PlaybackSpeed.TimeDiff` |

=== FILE: auth_routes.dfy ===
/** The account routes of the shopping-list server: `POST /auth/register`,
    `POST /auth/login` and `GET /auth/me`, over a `users` collection held as
    a sequence in insertion order (so `findOne` is "first match"). The store's
    failures (an unreachable database, a driver error) are the `fault` flag:
    every handler catches them and answers 500 "Server error". */
module AuthRoutes {
  import opened Options
  import opened Json
  import opened Seqs
  import opened Http
  import opened Crypto
  import opened BearerGate

  const FieldsRequired := "Email and password are required"
  const UserExists := "User already exists"
  const UserCreated := "User created"
  const InvalidCredentials := "Invalid credentials"
  const UserNotFound := "User not found"
  const ServerError := "Server error"

  /** A stored account: `{ _id, email, passwordHash, createdAt }`. The email
      is whatever JSON value the registration body carried. */
  datatype User = User(id: string, email: Value, passwordHash: string, createdAt: int)

  type Store = seq<User>

  /** A handler's reply together with the collection after it ran. */
  datatype Handled = Handled(reply: Reply, store: Store)

  /** The user as the database holds it. */
  function UserDoc(u: User): Doc {
    map["_id" := Str(u.id), "email" := u.email,
        "passwordHash" := Str(u.passwordHash), "createdAt" := Date(u.createdAt)]
  }

  /** `findOne({ email })`: the first user whose email equals the query value. */
  function FindByEmail(store: Store, email: Value): (r: Option<nat>)
    ensures r.Some? ==> r.value < |store| && store[r.value].email == email
    ensures r.Some? ==> forall j :: 0 <= j < r.value ==> store[j].email != email
    ensures r.None? <==> forall j :: 0 <= j < |store| ==> store[j].email != email
  {
    FindFirst(store, (u: User) => u.email == email)
  }

  /** `findOne({ _id })`: the user with that id. */
  function FindById(store: Store, id: string): (r: Option<nat>)
    ensures r.Some? ==> r.value < |store| && store[r.value].id == id
    ensures r.Some? ==> forall j :: 0 <= j < r.value ==> store[j].id != id
    ensures r.None? <==> forall j :: 0 <= j < |store| ==> store[j].id != id
  {
    FindFirst(store, (u: User) => u.id == id)
  }

  /** The value a destructured body key contributes to a query:
      the driver sends `undefined` as `null`. */
  function QueryValue(v: Option<Value>): Value {
    v.GetOr(Null)
  }

  /** The collection as registration keeps it: ids distinct, emails distinct,
      and every email truthy (registration refuses falsy ones). */
  ghost predicate Valid(store: Store) {
    && (forall i :: 0 <= i < |store| ==> Truthy(Some(store[i].email)))
    && (forall i, j :: 0 <= i < j < |store| ==> store[i].id != store[j].id)
    && (forall i, j :: 0 <= i < j < |store| ==> store[i].email != store[j].email)
  }

  /** `POST /auth/register`. `newId` is the id the database assigns and `now`
      the clock reading for `createdAt`. A falsy email or password is a 400
      before the store is touched; an email already stored is a 409; a
      password that is not a string makes bcrypt throw, which is a 500 like
      any store failure; otherwise exactly one user is appended and the reply
      is 201 "User created", with no token. */
  function Register(store: Store, body: Doc, newId: string, now: int, bcrypt: Bcrypt, fault: bool)
    : (r: Handled)
    ensures r.reply.status in {201, 400, 409, 500}
    ensures r.reply.status != 201 ==> r.store == store
    ensures !Truthy(Field(body, "email")) || !Truthy(Field(body, "password")) <==>
              r.reply == MessageReply(400, FieldsRequired)
    ensures r.reply == MessageReply(409, UserExists) <==>
              && Truthy(Field(body, "email")) && Truthy(Field(body, "password")) && !fault
              && FindByEmail(store, body["email"]).Some?
    ensures r.reply.status == 201 ==>
              && r.reply == MessageReply(201, UserCreated)
              && "email" in body && FindByEmail(store, body["email"]).None?
              && "password" in body && body["password"].Str?
              && r.store == store + [User(newId, body["email"], bcrypt.hash(body["password"].s), now)]
    ensures r.reply.status == 500 ==> r.reply == MessageReply(500, ServerError)
    ensures Truthy(Field(body, "email")) && Truthy(Field(body, "password")) && fault ==>
              r == Handled(MessageReply(500, ServerError), store)
    ensures Truthy(Field(body, "email")) && Truthy(Field(body, "password")) && !fault
            && FindByEmail(store, body["email"]).None? ==>
              (r.reply.status == 201 <==> body["password"].Str?)
              && (!body["password"].Str? ==> r == Handled(MessageReply(500, ServerError), store))
  {
    MessagesDiffer(400, FieldsRequired, ServerError);
    MessagesDiffer(409, UserExists, ServerError);
    var email := Field(body, "email");
    var password := Field(body, "password");
    if !Truthy(email) || !Truthy(password) then
      Handled(MessageReply(400, FieldsRequired), store)
    else if fault then
      Handled(MessageReply(500, ServerError), store)
    else if FindByEmail(store, email.value).Some? then
      Handled(MessageReply(409, UserExists), store)
    else if !password.value.Str? then
      Handled(MessageReply(500, ServerError), store)
    else
      var hash := bcrypt.hash(password.value.s);
      Handled(MessageReply(201, UserCreated), store + [User(newId, email.value, hash, now)])
  }

  /** `POST /auth/login`. An unknown email and a wrong password get the very
      same 401 reply; a found user with a password that is not a string makes
      bcrypt throw (500); success is 200 with a body holding only the token,
      signed over the user's id for one day. */
  function Login(store: Store, body: Doc, bcrypt: Bcrypt, jwt: Jwt, fault: bool): (r: Reply)
    ensures r.status in {200, 401, 500}
    ensures r.status == 401 ==> r == MessageReply(401, InvalidCredentials)
    ensures r.status == 500 ==> r == MessageReply(500, ServerError)
    ensures !fault && FindByEmail(store, QueryValue(Field(body, "email"))).None? ==>
              r == MessageReply(401, InvalidCredentials)
    ensures r.status == 200 ==>
              && !fault
              && var i := FindByEmail(store, QueryValue(Field(body, "email")));
                 && i.Some?
                 && "password" in body && body["password"].Str?
                 && bcrypt.compare(body["password"].s, store[i.value].passwordHash)
                 && r.body == Object(map["token" := Str(jwt.sign(Claims(store[i.value].id, OneDay)))])
  {
    if fault then MessageReply(500, ServerError)
    else
      match FindByEmail(store, QueryValue(Field(body, "email")))
      case None => MessageReply(401, InvalidCredentials)
      case Some(i) =>
        var user := store[i];
        var password := Field(body, "password");
        if password.None? || !password.value.Str? then MessageReply(500, ServerError)
        else if !bcrypt.compare(password.value.s, user.passwordHash) then
          MessageReply(401, InvalidCredentials)
        else
          var token := jwt.sign(Claims(user.id, OneDay));
          Reply(200, Object(map["token" := Str(token)]))
  }

  /** `GET /auth/me`, behind the bearer gate: the gate's 401 when it refuses;
      404 "User not found" when the token's user id names no user; otherwise
      200 with the stored user minus its password hash. */
  function Me(store: Store, header: Option<string>, jwt: Jwt, fault: bool): (r: Reply)
    ensures Authenticate(header, jwt).Reject? ==> r == Authenticate(header, jwt).reply
    ensures r == MessageReply(404, UserNotFound) <==>
              Authenticate(header, jwt).Next? && !fault &&
              FindById(store, Authenticate(header, jwt).userId).None?
    ensures r.status == 200 ==>
              && Authenticate(header, jwt).Next?
              && var i := FindById(store, Authenticate(header, jwt).userId);
                 && i.Some?
                 && r.body == Object(Omit(UserDoc(store[i.value]), "passwordHash"))
    ensures r.body.Object? ==> "passwordHash" !in r.body.doc
  {
    MessagesDiffer(404, UserNotFound, ServerError);
    match Authenticate(header, jwt)
    case Reject(reply) => reply
    case Next(userId) =>
      if fault then MessageReply(500, ServerError)
      else
        match FindById(store, userId)
        case None => MessageReply(404, UserNotFound)
        case Some(i) => Reply(200, Object(Omit(UserDoc(store[i]), "passwordHash")))
  }

  /** Registration keeps the collection valid: at most one user per email,
      whatever sequence of registrations is made, given the database's fresh id. */
  lemma RegisterPreservesValid(store: Store, body: Doc, newId: string, now: int, bcrypt: Bcrypt, fault: bool)
    requires Valid(store)
    requires forall i :: 0 <= i < |store| ==> store[i].id != newId
    ensures Valid(Register(store, body, newId, now, bcrypt, fault).store)
  {
    var r := Register(store, body, newId, now, bcrypt, fault);
    if r.reply.status == 201 {
      var s := r.store;
      assert s[|store|].email == body["email"];
      assert Truthy(Some(body["email"]));
      forall i, j | 0 <= i < j < |s| ensures s[i].email != s[j].email {
        if j == |store| {
          assert s[i] == store[i];
        }
      }
    }
  }

  /** A second registration with an email already stored is refused with 409
      and creates nothing. */
  lemma RegisterDuplicateRefused(store: Store, email: string, password: string, newId: string,
                                 now: int, bcrypt: Bcrypt, i: nat)
    requires Valid(store)
    requires i < |store| && store[i].email == Str(email)
    requires password != ""
    ensures var r := Register(store, map["email" := Str(email), "password" := Str(password)],
                              newId, now, bcrypt, false);
            r.reply == MessageReply(409, UserExists) && r.store == store
  {
    var body := map["email" := Str(email), "password" := Str(password)];
    assert Truthy(Some(store[i].email));
    assert FindByEmail(store, body["email"]).Some?;
  }

  /** The end-to-end flow: register a new email and password, log in with
      them, and present the returned token to `/me`. Login succeeds with a
      token the gate maps back to the new user, `/me` answers with the
      registered email and no password hash, and logging in with any other
      password is the generic 401, as long as its bcrypt key (`KeyOf`)
      differs from the registered one's. */
  lemma RegisterLoginMe(store: Store, email: string, password: string, other: string,
                        newId: string, now: int, bcrypt: Bcrypt, jwt: Jwt)
    requires Valid(store)
    requires forall i :: 0 <= i < |store| ==> store[i].id != newId
    requires forall i :: 0 <= i < |store| ==> store[i].email != Str(email)
    requires email != "" && password != "" && KeyOf(other) != KeyOf(password)
    requires Matches(bcrypt) && Discriminates(bcrypt) && RoundTrips(jwt)
    ensures var body := map["email" := Str(email), "password" := Str(password)];
            var reg := Register(store, body, newId, now, bcrypt, false);
            var token := jwt.sign(Claims(newId, OneDay));
            && reg.reply == MessageReply(201, UserCreated)
            && Login(reg.store, body, bcrypt, jwt, false) == Reply(200, Object(map["token" := Str(token)]))
            && Me(reg.store, Some("Bearer " + token), jwt, false) ==
                 Reply(200, Object(map["_id" := Str(newId), "email" := Str(email), "createdAt" := Date(now)]))
            && Login(reg.store, body["password" := Str(other)], bcrypt, jwt, false) ==
                 MessageReply(401, InvalidCredentials)
  {
    var body := map["email" := Str(email), "password" := Str(password)];
    RegisterNewEmail(store, email, password, newId, now, bcrypt);
    var s := Register(store, body, newId, now, bcrypt, false).store;
    LoginAfterRegister(s, |store|, email, password, other, bcrypt, jwt);
    MeAfterRegister(s, |store|, jwt);
  }

  /** Registering a new email appends its user last, where both lookups find it. */
  lemma RegisterNewEmail(store: Store, email: string, password: string, newId: string, now: int, bcrypt: Bcrypt)
    requires forall i :: 0 <= i < |store| ==> store[i].id != newId
    requires forall i :: 0 <= i < |store| ==> store[i].email != Str(email)
    requires email != "" && password != ""
    ensures var r := Register(store, map["email" := Str(email), "password" := Str(password)], newId, now, bcrypt, false);
            && r.reply == MessageReply(201, UserCreated)
            && r.store == store + [User(newId, Str(email), bcrypt.hash(password), now)]
            && FindByEmail(r.store, Str(email)) == Some(|store|)
            && FindById(r.store, newId) == Some(|store|)
  {
    var body := map["email" := Str(email), "password" := Str(password)];
    assert FindByEmail(store, Str(email)).None?;
    var u := User(newId, Str(email), bcrypt.hash(password), now);
    assert Register(store, body, newId, now, bcrypt, false).store == store + [u];
    FindByEmailAppend(store, u);
    FindByIdAppend(store, u);
  }

  /** Logging in as the user found at `k`: the registered password yields a
      token for that user's id, any other password the generic 401. */
  lemma LoginAfterRegister(s: Store, k: nat, email: string, password: string, other: string,
                           bcrypt: Bcrypt, jwt: Jwt)
    requires k < |s| && FindByEmail(s, Str(email)) == Some(k)
    requires s[k].passwordHash == bcrypt.hash(password)
    requires KeyOf(other) != KeyOf(password) && Matches(bcrypt) && Discriminates(bcrypt)
    ensures var body := map["email" := Str(email), "password" := Str(password)];
            && Login(s, body, bcrypt, jwt, false) ==
                 Reply(200, Object(map["token" := Str(jwt.sign(Claims(s[k].id, OneDay)))]))
            && Login(s, body["password" := Str(other)], bcrypt, jwt, false) ==
                 MessageReply(401, InvalidCredentials)
  {
    var body := map["email" := Str(email), "password" := Str(password)];
    assert bcrypt.compare(password, s[k].passwordHash);
    LoginWith(s, k, body, password, bcrypt, jwt);
    var wrong := body["password" := Str(other)];
    assert QueryValue(Field(wrong, "email")) == Str(email);
    assert !bcrypt.compare(other, s[k].passwordHash);
    LoginWith(s, k, wrong, other, bcrypt, jwt);
  }

  /** The token signed for the user at `k` opens `/me` on that user, shown
      without the password hash. */
  lemma MeAfterRegister(s: Store, k: nat, jwt: Jwt)
    requires k < |s| && FindById(s, s[k].id) == Some(k)
    requires RoundTrips(jwt)
    ensures Me(s, Some("Bearer " + jwt.sign(Claims(s[k].id, OneDay))), jwt, false) ==
              Reply(200, Object(map["_id" := Str(s[k].id), "email" := s[k].email, "createdAt" := Date(s[k].createdAt)]))
  {
    var token := jwt.sign(Claims(s[k].id, OneDay));
    AuthenticateSignedToken(jwt, Claims(s[k].id, OneDay), "");
    assert "Bearer " + token + "" == "Bearer " + token;
    MeWith(s, k, Some("Bearer " + token), jwt);
    ProfileOf(s[k]);
  }

  /** The profile `/me` shows: the stored user without its password hash. */
  lemma ProfileOf(u: User)
    ensures Omit(UserDoc(u), "passwordHash") ==
              map["_id" := Str(u.id), "email" := u.email, "createdAt" := Date(u.createdAt)]
  {
    var p := Omit(UserDoc(u), "passwordHash");
    assert p.Keys == {"_id", "email", "createdAt"};
  }

  /** Login once the email query has found user `k`: the password decides
      between the token and the generic 401. */
  lemma LoginWith(s: Store, k: nat, body: Doc, password: string, bcrypt: Bcrypt, jwt: Jwt)
    requires k < |s| && FindByEmail(s, QueryValue(Field(body, "email"))) == Some(k)
    requires "password" in body && body["password"] == Str(password)
    ensures bcrypt.compare(password, s[k].passwordHash) ==>
              Login(s, body, bcrypt, jwt, false) ==
                Reply(200, Object(map["token" := Str(jwt.sign(Claims(s[k].id, OneDay)))]))
    ensures !bcrypt.compare(password, s[k].passwordHash) ==>
              Login(s, body, bcrypt, jwt, false) == MessageReply(401, InvalidCredentials)
  {
  }

  /** `/me` once the gate has let user id through and that id is user `k`. */
  lemma MeWith(s: Store, k: nat, header: Option<string>, jwt: Jwt)
    requires k < |s| && Authenticate(header, jwt).Next?
    requires FindById(s, Authenticate(header, jwt).userId) == Some(k)
    ensures Me(s, header, jwt, false) == Reply(200, Object(Omit(UserDoc(s[k]), "passwordHash")))
  {
  }

  /** Appending a user with a new email makes it the first match for that email. */
  lemma FindByEmailAppend(store: Store, u: User)
    requires FindByEmail(store, u.email).None?
    ensures FindByEmail(store + [u], u.email) == Some(|store|)
  {
    FindFirstAppend(store, u, (v: User) => v.email == u.email);
  }

  /** Appending a user with a new id makes it the first match for that id. */
  lemma FindByIdAppend(store: Store, u: User)
    requires FindById(store, u.id).None?
    ensures FindById(store + [u], u.id) == Some(|store|)
  {
    FindFirstAppend(store, u, (v: User) => v.id == u.id);
  }
}

=== FILE: bearer_gate.dfy ===
/** The authentication middleware `auth(req, res, next)`: it reads the
    `Authorization` header, expects `Bearer <token>`, verifies the token and
    either answers 401 itself or passes the caller's user id on to the route
    handler. Exactly one of the two happens, which `Outcome` makes structural. */
module BearerGate {
  import opened Options
  import opened Text
  import opened Json
  import opened Http
  import opened Crypto

  const HeaderMissing := "Authorization header missing"
  const HeaderInvalid := "Invalid Authorization header"
  const TokenInvalid := "Invalid or expired token"

  /** What the middleware does: respond (always 401), or call `next()` once
      with `req.userId` set. */
  datatype Outcome = Reject(reply: Reply) | Next(userId: string)

  /** `const [scheme, token] = header.split(" ")` followed by the check
      `scheme !== "Bearer" || !token`: the token when the header passes it.
      A missing second piece is `undefined`, which is as falsy as `""`. */
  function BearerToken(header: string): (t: Option<string>)
    ensures t.Some? ==> IsCompact(t.value)
  {
    var pieces := Split(header, ' ');
    var token := if |pieces| >= 2 then pieces[1] else "";
    if pieces[0] != "Bearer" || token == "" then None else Some(token)
  }

  /** The middleware. A header that is absent or empty is "missing"; one that
      does not parse as a bearer header is "invalid"; a token the verifier
      refuses is "invalid or expired"; otherwise the payload's user id goes on. */
  function Authenticate(header: Option<string>, jwt: Jwt): (r: Outcome)
    ensures r.Reject? ==> r.reply.status == 401
    ensures (header.None? || header == Some("")) <==> r == Reject(MessageReply(401, HeaderMissing))
    ensures r == Reject(MessageReply(401, HeaderInvalid)) <==>
              header.Some? && header.value != "" && BearerToken(header.value).None?
    ensures r.Next? ==>
              && header.Some? && BearerToken(header.value).Some?
              && jwt.verify(BearerToken(header.value).value).Some?
              && jwt.verify(BearerToken(header.value).value).value.userId == r.userId
    ensures header.Some? && header.value != "" && BearerToken(header.value).Some? ==>
              var claims := jwt.verify(BearerToken(header.value).value);
              && (claims.None? ==> r == Reject(MessageReply(401, TokenInvalid)))
              && (claims.Some? ==> r == Next(claims.value.userId))
  {
    MessagesDiffer(401, HeaderMissing, HeaderInvalid);
    MessagesDiffer(401, TokenInvalid, HeaderInvalid);
    MessagesDiffer(401, TokenInvalid, HeaderMissing);
    if header.None? || header.value == "" then
      Reject(MessageReply(401, HeaderMissing))
    else
      match BearerToken(header.value)
      case None => Reject(MessageReply(401, HeaderInvalid))
      case Some(token) =>
        match jwt.verify(token)
        case None => Reject(MessageReply(401, TokenInvalid))
        case Some(payload) => Next(payload.userId)
  }

  /** A header made of `Bearer`, one space, a compact token and then either
      nothing or a space-led remainder yields exactly that token: pieces after
      the second are ignored. */
  lemma BearerTokenOfHeader(token: string, rest: string)
    requires IsCompact(token)
    requires rest == "" || rest[0] == ' '
    ensures BearerToken("Bearer " + token + rest) == Some(token)
  {
    var h := "Bearer " + token + rest;
    assert h == "Bearer" + [' '] + (token + rest);
    SplitAfterPiece("Bearer", ' ', token + rest);
    if rest == "" {
      assert token + rest == token;
      assert Split(token, ' ') == [token];
    } else {
      assert token + rest == token + [' '] + rest[1..];
      SplitAfterPiece(token, ' ', rest[1..]);
    }
  }

  /** Conversely, a header that passes has exactly that shape: it starts with
      `Bearer `, then the token, then ends or continues with a space. The
      scheme comparison is case-sensitive. */
  lemma BearerTokenShape(header: string)
    requires BearerToken(header).Some?
    ensures StartsWith(header, "Bearer " + BearerToken(header).value)
    ensures var n := 7 + |BearerToken(header).value|;
            |header| == n || header[n] == ' '
  {
    var pieces := Split(header, ' ');
    var t := BearerToken(header).value;
    assert pieces[0] == "Bearer" && pieces[1] == t;
    var tail := Join(pieces[1..], ' ');
    assert header == "Bearer" + [' '] + tail;
    if |pieces| == 2 {
      assert tail == t;
    } else {
      assert pieces[1..][1..] == pieces[2..];
      assert tail == t + [' '] + Join(pieces[2..], ' ');
    }
    assert header[..7 + |t|] == "Bearer " + t;
  }

  /** A header carrying a token the server signed gets through the gate with
      the signed user id, whatever follows the token after a space. */
  lemma AuthenticateSignedToken(jwt: Jwt, claims: Claims, rest: string)
    requires RoundTrips(jwt)
    requires rest == "" || rest[0] == ' '
    ensures Authenticate(Some("Bearer " + jwt.sign(claims) + rest), jwt) == Next(claims.userId)
  {
    BearerTokenOfHeader(jwt.sign(claims), rest);
  }

  /** A non-empty header that does not begin with `Bearer ` (including
      `bearer ...` and `Token ...`) is answered 401 "Invalid Authorization
      header", and the token is never looked at. */
  lemma AuthenticateNeedsBearerPrefix(header: string, jwt: Jwt)
    requires header != ""
    requires !StartsWith(header, "Bearer ")
    ensures Authenticate(Some(header), jwt) == Reject(MessageReply(401, HeaderInvalid))
  {
    if BearerToken(header).Some? {
      BearerTokenShape(header);
    }
  }
}

=== FILE: crypto.dfy ===
/** The two cryptographic libraries the server calls, as parameters of the
    model rather than code: password hashing (`bcrypt.hash`, `bcrypt.compare`)
    and signed tokens (`jwt.sign`, `jwt.verify`). Each is a record of
    functions, and the properties the server relies on are predicates that
    the lemmas needing them take as preconditions. */
module Crypto {
  import opened Options

  /** `bcrypt.hash(password, SALT_ROUNDS)` and `bcrypt.compare(password, hash)`
      on string arguments (bcryptjs rejects any other argument type, which the
      route models treat as a thrown error). */
  datatype Bcrypt = Bcrypt(hash: string -> string, compare: (string, string) -> bool)

  /** The work factor the routes pass to `bcrypt.hash`. */
  const SaltRounds := 10

  /** A password matches its own hash. */
  ghost predicate Matches(b: Bcrypt) {
    forall p :: b.compare(p, b.hash(p))
  }

  /** bcrypt's key schedule takes exactly 72 bytes of key material. */
  const KeyBytes := 72

  type Byte = x: int | 0 <= x < 256

  /** The UTF-8 encoding of one character. */
  function CharUtf8(c: char): (r: seq<Byte>)
    ensures 1 <= |r| <= 4
    ensures (c as int < 0x80) <==> |r| == 1
    ensures |r| == 1 ==> r[0] == c as int
  {
    var n := c as int;
    if n < 0x80 then [n]
    else if n < 0x800 then [0xC0 + n / 64, 0x80 + n % 64]
    else if n < 0x10000 then [0xE0 + n / 4096, 0x80 + (n / 64) % 64, 0x80 + n % 64]
    else [0xF0 + n / 262144, 0x80 + (n / 4096) % 64, 0x80 + (n / 64) % 64, 0x80 + n % 64]
  }

  /** The UTF-8 encoding of a string. */
  function Utf8(s: string): (r: seq<Byte>)
    ensures |r| >= |s|
  {
    if s == [] then [] else CharUtf8(s[0]) + Utf8(s[1..])
  }

  /** `n` bytes read cyclically from `d`, wrapping to its start each time
      its end is reached (the way the key schedule streams key words). */
  function Cycle(d: seq<Byte>, n: nat): (r: seq<Byte>)
    requires d != []
    ensures |r| == n
    ensures n <= |d| ==> r == d[..n]
    ensures n > |d| ==> r[..|d|] == d
    decreases n
  {
    if n <= |d| then d[..n] else d + Cycle(d, n - |d|)
  }

  /** The key bcrypt derives from a password under a `$2a$`/`$2b$` salt (the
      kind `bcrypt.hash` generates): the UTF-8 bytes with a NUL byte appended,
      repeated cyclically to fill 72 bytes. A password of 72 bytes or more
      is therefore cut to its first 72; a shorter one shows its bytes and
      then the NUL. */
  function KeyOf(p: string): (k: seq<Byte>)
    ensures |k| == KeyBytes
    ensures |Utf8(p)| >= KeyBytes ==> k == Utf8(p)[..KeyBytes]
    ensures |Utf8(p)| < KeyBytes ==> k[..|Utf8(p)|] == Utf8(p) && k[|Utf8(p)|] == 0
  {
    var d := Utf8(p) + [0];
    assert |Utf8(p)| < KeyBytes ==> Cycle(d, KeyBytes)[..|d|] == d;
    Cycle(d, KeyBytes)
  }

  /** Only a password with the same key matches a hash (collision
      resistance, idealised, within the key derivation bcrypt makes). */
  ghost predicate Discriminates(b: Bcrypt) {
    forall p, q :: b.compare(q, b.hash(p)) ==> KeyOf(q) == KeyOf(p)
  }

  /** An ASCII string encodes as its character codes, one byte each. */
  lemma {:induction false} AsciiUtf8(s: string)
    requires forall i :: 0 <= i < |s| ==> s[i] as int < 0x80
    ensures |Utf8(s)| == |s|
    ensures forall i :: 0 <= i < |s| ==> Utf8(s)[i] == s[i] as int
  {
    if s != [] {
      AsciiUtf8(s[1..]);
      assert Utf8(s) == [s[0] as int] + Utf8(s[1..]);
    }
  }

  /** Two different ASCII passwords of at most 72 characters, none of them
      NUL, have different keys, so bcrypt tells them apart. */
  lemma ShortAsciiKeysDiffer(p: string, q: string)
    requires forall i :: 0 <= i < |p| ==> 0 < p[i] as int < 0x80
    requires forall i :: 0 <= i < |q| ==> 0 < q[i] as int < 0x80
    requires |p| <= KeyBytes && |q| <= KeyBytes && p != q
    ensures KeyOf(p) != KeyOf(q)
  {
    AsciiUtf8(p);
    AsciiUtf8(q);
    if |p| == |q| {
      var i :| 0 <= i < |p| && p[i] != q[i];
      assert KeyOf(p)[i] == Utf8(p)[i] && KeyOf(q)[i] == Utf8(q)[i];
    } else if |p| < |q| {
      assert KeyOf(p)[|p|] == 0 && KeyOf(q)[|p|] == Utf8(q)[|p|];
    } else {
      assert KeyOf(q)[|q|] == 0 && KeyOf(p)[|q|] == Utf8(p)[|q|];
    }
  }

  /** Past 72 bytes the rest is ignored: 72 "a"s followed by "x" and by "y"
      have the same key, so each matches the other's hash. */
  lemma LongPasswordsCollide()
    ensures var a := seq(KeyBytes, _ => 'a');
            a + "x" != a + "y" && KeyOf(a + "x") == KeyOf(a + "y")
  {
    var a := seq(KeyBytes, _ => 'a');
    AsciiUtf8(a + "x");
    AsciiUtf8(a + "y");
    assert (a + "x")[KeyBytes] != (a + "y")[KeyBytes];
    assert Utf8(a + "x")[..KeyBytes] == Utf8(a + "y")[..KeyBytes];
  }

  /** Cycling a doubled sequence reads the same bytes as cycling the
      sequence itself. */
  lemma {:induction false} CycleDouble(d: seq<Byte>, n: nat)
    requires d != []
    ensures Cycle(d + d, n) == Cycle(d, n)
    decreases n
  {
    if n <= |d| {
      assert (d + d)[..n] == d[..n];
    } else if n <= 2 * |d| {
      assert Cycle(d, n - |d|) == d[..n - |d|];
      assert (d + d)[..n] == d + d[..n - |d|];
    } else {
      CycleDouble(d, n - 2 * |d|);
      assert Cycle(d, n) == d + (d + Cycle(d, n - 2 * |d|));
    }
  }

  /** The appended NUL and the repetition give a password and its own
      repetition joined by NUL the same key: "ab" and "ab\0ab" both give
      a b 0 a b 0 ..., so each matches the other's hash. */
  lemma NulRepetitionCollides()
    ensures "ab" != "ab\0ab" && KeyOf("ab") == KeyOf("ab\0ab")
  {
    AsciiUtf8("ab");
    AsciiUtf8("ab\0ab");
    var d3: seq<Byte> := Utf8("ab") + [0];
    assert Utf8("ab\0ab") + [0] == d3 + d3;
    CycleDouble(d3, KeyBytes);
  }

  /** The payload the server signs: the user id, and the lifetime given
      as `expiresIn`. */
  datatype Claims = Claims(userId: string, lifetimeSeconds: nat)

  /** `expiresIn: "1d"`. */
  const OneDay := 86400

  /** `jwt.sign(claims, JWT_SECRET, ...)` and `jwt.verify(token, JWT_SECRET)`,
      the latter returning `None` where the library throws (bad signature,
      expired, malformed). The signing secret and the clock are fixed inside
      the two functions. */
  datatype Jwt = Jwt(sign: Claims -> string, verify: string -> Option<Claims>)

  /** A signed token is compact text: non-empty and free of spaces (the
      base64url-and-dots form of a JWT). */
  predicate IsCompact(token: string) {
    token != "" && ' ' !in token
  }

  /** Verifying a freshly signed token gives back its payload, and signed
      tokens are compact. */
  ghost predicate RoundTrips(j: Jwt) {
    forall c :: j.verify(j.sign(c)) == Some(c) && IsCompact(j.sign(c))
  }
}

=== FILE: decimal.dfy ===
/** Decimal text of whole numbers, as JavaScript renders an integral number
    inside a template literal or a `+` concatenation (`${n}`, `n + " hours "`),
    together with the value of a digit string, which is its inverse. */
module Decimal {

  predicate IsDigit(c: char) {
    '0' <= c <= '9'
  }

  predicate AllDigits(s: string) {
    forall i :: 0 <= i < |s| ==> IsDigit(s[i])
  }

  function DigitChar(d: nat): (c: char)
    requires d < 10
    ensures IsDigit(c)
  {
    ('0' as int + d) as char
  }

  function DigitValue(c: char): (d: nat)
    requires IsDigit(c)
    ensures d < 10 && DigitChar(d) == c
  {
    c as int - '0' as int
  }

  /** The shortest decimal text of `n`: digits only, no leading zero
      unless `n` is zero. */
  function NatToString(n: nat): (r: string)
    ensures |r| >= 1 && AllDigits(r)
    ensures r[0] == '0' ==> n == 0 && r == "0"
    decreases n
  {
    if n < 10 then [DigitChar(n)] else NatToString(n / 10) + [DigitChar(n % 10)]
  }

  /** The number a digit string denotes (most significant digit first). */
  function DigitsValue(s: string): nat
    requires AllDigits(s)
  {
    if |s| == 0 then 0 else DigitsValue(s[..|s| - 1]) * 10 + DigitValue(s[|s| - 1])
  }

  /** Reading back the decimal text of `n` gives `n`. */
  lemma {:induction false} DigitsValueOfNatToString(n: nat)
    ensures DigitsValue(NatToString(n)) == n
    decreases n
  {
    var s := NatToString(n);
    if n >= 10 {
      DigitsValueOfNatToString(n / 10);
      assert s[..|s| - 1] == NatToString(n / 10);
    }
  }

  /** Distinct numbers have distinct decimal texts. */
  lemma NatToStringInjective(a: nat, b: nat)
    ensures NatToString(a) == NatToString(b) ==> a == b
  {
    DigitsValueOfNatToString(a);
    DigitsValueOfNatToString(b);
  }

  /** JavaScript's rendering of an integral number: a minus sign in front of
      the digits of its magnitude when it is negative. */
  function IntToString(i: int): (r: string)
    ensures |r| >= 1
    ensures i < 0 <==> r[0] == '-'
    ensures i >= 0 ==> r == NatToString(i)
    ensures i < 0 ==> r[1..] == NatToString(-i)
  {
    if i < 0 then "-" + NatToString(-i) else NatToString(i)
  }
}

=== FILE: expense_tracker.dfy ===
/** The expense tracker page: a form (description, amount, category), the
    table of transaction rows on screen, and the list persisted under the
    `transactions` key of the browser's storage. The storage is a value here:
    `None` when the key was never written, which reads back as `[]`.
    Amounts are idealised as reals; the form's amount is `None` where
    `parseFloat` yields `NaN` (a blank or non-numeric input). */
module ExpenseTracker {
  import opened Options
  import opened Text
  import opened Seqs

  const InvalidInput := "Please enter a valid description and amount."
  const Income := "Income"
  const IncomeTag := "+ "
  const ExpenseTag := "- "

  datatype Transaction = Transaction(description: string, amount: real, category: string, tag: string)

  datatype Form = Form(description: string, amount: Option<real>, category: string)

  datatype Page = Page(stored: Option<seq<Transaction>>, rows: seq<Transaction>, form: Form)

  /** A form submission: the page afterwards and the alert shown, if any. */
  datatype Submitted = Submitted(page: Page, alert: Option<string>)

  /** `JSON.parse(localStorage.getItem('transactions')) || []`. */
  function Stored(stored: Option<seq<Transaction>>): seq<Transaction> {
    stored.GetOr([])
  }

  /** The type tag: `"+ "` for the category "Income", `"- "` for any other. */
  function TagOf(category: string): (tag: string)
    ensures tag == IncomeTag <==> category == Income
    ensures tag == ExpenseTag <==> category != Income
  {
    if category == Income then IncomeTag else ExpenseTag
  }

  /** The transaction object `addTransaction` builds. */
  function MakeTransaction(description: string, amount: real, category: string): (t: Transaction)
    ensures t.description == description && t.amount == amount && t.category == category
    ensures (t.tag == IncomeTag) == (category == Income)
  {
    Transaction(description, amount, category, TagOf(category))
  }

  /** The equality `removeTransaction` uses: description, amount and
      category, never the tag. */
  predicate SameEntry(a: Transaction, b: Transaction) {
    a.description == b.description && a.amount == b.amount && a.category == b.category
  }

  /** `addTransaction`: the row is always appended to the table; the stored
      list gains the transaction at its end unless `isLoading`, in which case
      storage is not written at all. */
  function AddTransaction(p: Page, description: string, amount: real, category: string,
                          isLoading: bool): (r: Page)
    ensures r.rows == p.rows + [MakeTransaction(description, amount, category)]
    ensures isLoading ==> r.stored == p.stored
    ensures !isLoading ==> r.stored == Some(Stored(p.stored) + [MakeTransaction(description, amount, category)])
    ensures r.form == p.form
  {
    var t := MakeTransaction(description, amount, category);
    var stored := if isLoading then p.stored else Some(Stored(p.stored) + [t]);
    Page(stored, p.rows + [t], p.form)
  }

  /** The filter of `removeTransaction`: every entry equal to `t` on
      description, amount and category goes, the rest keep their order. */
  function RemoveMatching(ts: seq<Transaction>, t: Transaction): (r: seq<Transaction>)
    ensures |r| <= |ts|
    ensures forall x :: x in r <==> x in ts && !SameEntry(x, t)
    ensures (forall x :: x in ts ==> !SameEntry(x, t)) ==> r == ts
  {
    if |ts| == 0 then []
    else if SameEntry(ts[0], t) then RemoveMatching(ts[1..], t)
    else
      assert ts == [ts[0]] + ts[1..];
      [ts[0]] + RemoveMatching(ts[1..], t)
  }

  /** `removeTransaction`: the filtered list written back to storage. */
  function RemoveTransaction(stored: Option<seq<Transaction>>, t: Transaction): (r: Option<seq<Transaction>>)
    ensures r.Some?
    ensures forall x :: x in r.value <==> x in Stored(stored) && !SameEntry(x, t)
  {
    Some(RemoveMatching(Stored(stored), t))
  }

  /** The submit handler. A trimmed description that is empty, an amount that
      is `NaN` or one not above 0 raises the alert and changes nothing;
      otherwise the transaction is added and stored, and the description and
      amount inputs are cleared (the category is left as it was). */
  function Submit(p: Page): (r: Submitted)
    ensures r.alert.Some? <==>
              Trim(p.form.description) == "" || p.form.amount.None? || p.form.amount.value <= 0.0
    ensures r.alert.Some? ==> r == Submitted(p, Some(InvalidInput))
    ensures r.alert.None? ==>
              var t := MakeTransaction(Trim(p.form.description), p.form.amount.value, p.form.category);
              && r.page.stored == Some(Stored(p.stored) + [t])
              && r.page.rows == p.rows + [t]
              && r.page.form == Form("", None, p.form.category)
  {
    var description := Trim(p.form.description);
    if description == "" || p.form.amount.None? || p.form.amount.value <= 0.0 then
      Submitted(p, Some(InvalidInput))
    else
      var added := AddTransaction(p, description, p.form.amount.value, p.form.category, false);
      Submitted(added.(form := Form("", None, p.form.category)), None)
  }

  /** The delete button of row `i`: that one row leaves the table, and every
      stored entry equal to it leaves storage. */
  function ClickDelete(p: Page, i: nat): (r: Page)
    requires i < |p.rows|
    ensures r.rows == RemoveAt(p.rows, i)
    ensures r.stored == RemoveTransaction(p.stored, p.rows[i])
    ensures r.form == p.form
  {
    Page(RemoveTransaction(p.stored, p.rows[i]), RemoveAt(p.rows, i), p.form)
  }

  /** The edit button of row `i` (`editTransaction`): the row leaves the
      table, its values fill the form, and it is removed from storage just
      as the delete button would. */
  function ClickEdit(p: Page, i: nat): (r: Page)
    requires i < |p.rows|
    ensures r.rows == ClickDelete(p, i).rows && r.stored == ClickDelete(p, i).stored
    ensures r.form == Form(p.rows[i].description, Some(p.rows[i].amount), p.rows[i].category)
  {
    var t := p.rows[i];
    Page(RemoveTransaction(p.stored, t), RemoveAt(p.rows, i), Form(t.description, Some(t.amount), t.category))
  }

  /** The rows `loadTransactions` puts on screen for a stored list: each
      entry re-added, its tag recomputed from its category. */
  function Reloaded(ts: seq<Transaction>): (rows: seq<Transaction>)
    ensures |rows| == |ts|
    ensures forall j :: 0 <= j < |ts| ==>
              rows[j] == MakeTransaction(ts[j].description, ts[j].amount, ts[j].category)
  {
    seq(|ts|, j requires 0 <= j < |ts| => MakeTransaction(ts[j].description, ts[j].amount, ts[j].category))
  }

  /** `loadTransactions`: every stored entry, in order, goes through
      `addTransaction` with `isLoading` set, so the table gains one row per
      entry and storage is never written. */
  method LoadTransactions(p: Page) returns (r: Page)
    ensures r.rows == p.rows + Reloaded(Stored(p.stored))
    ensures r.stored == p.stored
    ensures r.form == p.form
  {
    var ts := Stored(p.stored);
    r := p;
    var k := 0;
    while k < |ts|
      invariant 0 <= k <= |ts|
      invariant r.rows == p.rows + Reloaded(ts)[..k]
      invariant r.stored == p.stored && r.form == p.form
    {
      r := AddTransaction(r, ts[k].description, ts[k].amount, ts[k].category, true);
      assert Reloaded(ts)[..k + 1] == Reloaded(ts)[..k] + [Reloaded(ts)[k]];
      k := k + 1;
    }
    assert Reloaded(ts)[..k] == Reloaded(ts);
  }

  /** The "clear all" form: storage is set to the empty list, and since the
      listener does not prevent the default, the form submission reloads the
      page. The reloaded document's table is rebuilt by `loadTransactions`
      from the now-empty storage; its form shows `reloadedForm`, whatever the
      browser puts in a reloaded form. */
  function ClearAll(p: Page, reloadedForm: Form): (r: Page)
    ensures r.stored == Some([])
    ensures r.rows == Reloaded(Stored(r.stored)) && r.rows == []
    ensures r.form == reloadedForm
  {
    Page(Some([]), [], reloadedForm)
  }

  /** Removal distributes over concatenation, so the filter keeps the
      surviving entries in their original order. */
  lemma {:induction false} RemoveMatchingAppend(a: seq<Transaction>, b: seq<Transaction>, t: Transaction)
    ensures RemoveMatching(a + b, t) == RemoveMatching(a, t) + RemoveMatching(b, t)
  {
    if |a| == 0 {
      assert a + b == b;
    } else {
      assert (a + b)[0] == a[0];
      assert (a + b)[1..] == a[1..] + b;
      RemoveMatchingAppend(a[1..], b, t);
    }
  }

  /** On one entry the filter drops it exactly when it matches. */
  lemma RemoveMatchingSingle(x: Transaction, t: Transaction)
    ensures SameEntry(x, t) ==> RemoveMatching([x], t) == []
    ensures !SameEntry(x, t) ==> RemoveMatching([x], t) == [x]
  {
    assert [x][1..] == [];
  }

  /** Matching ignores the tag: two transactions that differ only in their
      tag are removed together. */
  lemma {:induction false} RemoveIgnoresTag(ts: seq<Transaction>, t: Transaction, tag: string)
    ensures RemoveMatching(ts, t) == RemoveMatching(ts, t.(tag := tag))
  {
    if |ts| > 0 {
      assert SameEntry(ts[0], t) == SameEntry(ts[0], t.(tag := tag));
      RemoveIgnoresTag(ts[1..], t, tag);
    }
  }

  /** Every duplicate goes: after deleting row `i`, no stored entry equal to
      that row is left, even when the table still shows another copy. */
  lemma DeleteRemovesAllDuplicates(p: Page, i: nat, j: nat)
    requires i < |p.rows| && j < |p.rows| && i != j
    requires p.rows[j] == p.rows[i]
    ensures p.rows[i] in ClickDelete(p, i).rows
    ensures forall x :: x in Stored(ClickDelete(p, i).stored) ==> !SameEntry(x, p.rows[i])
  {
    var r := RemoveAt(p.rows, i);
    if j < i { assert r[j] == p.rows[i]; } else { assert r[j - 1] == p.rows[i]; }
  }

  /** After a clear-all, the next accepted submission is the only entry,
      stored and shown: nothing from before the clear survives. */
  lemma ClearAllThenSubmit(p: Page, reloadedForm: Form)
    requires Trim(reloadedForm.description) != "" && reloadedForm.amount.Some? && reloadedForm.amount.value > 0.0
    ensures var after := Submit(ClearAll(p, reloadedForm));
            var t := MakeTransaction(Trim(reloadedForm.description), reloadedForm.amount.value, reloadedForm.category);
            && after.alert.None?
            && after.page.stored == Some([t])
            && after.page.rows == [t]
  {
    var t := MakeTransaction(Trim(reloadedForm.description), reloadedForm.amount.value, reloadedForm.category);
    assert Stored(ClearAll(p, reloadedForm).stored) + [t] == [t];
    assert ClearAll(p, reloadedForm).rows + [t] == [t];
  }

  /** A description that went through the submit handler is already trimmed,
      so submitting it again keeps it as it is. */
  lemma SubmittedDescriptionTrimmed(p: Page)
    requires Submit(p).alert.None?
    ensures var t := Submit(p).page.rows[|p.rows|];
            Trim(t.description) == t.description && t.description != ""
  {
    TrimIdempotent(p.form.description);
  }

  /** Edit, then submit unchanged: the entry moves to the end of storage (all
      its stored duplicates collapse into that one copy) and to the end of
      the table; its values and tag are kept. */
  lemma EditThenSubmit(p: Page, i: nat)
    requires i < |p.rows|
    requires p.rows[i].description == Trim(p.rows[i].description) && p.rows[i].description != ""
    requires p.rows[i].amount > 0.0
    ensures var t := p.rows[i];
            var after := Submit(ClickEdit(p, i));
            var t2 := MakeTransaction(t.description, t.amount, t.category);
            && after.alert.None?
            && after.page.stored == Some(RemoveMatching(Stored(p.stored), t) + [t2])
            && after.page.rows == RemoveAt(p.rows, i) + [t2]
            && SameEntry(t2, t)
  {
  }
}

=== FILE: http.dfy ===
/** What a handler sends back: a status code and a body, which is a JSON
    object (`res.json(obj)`), a JSON array, or plain text (`res.send("...")`). */
module Http {
  import opened Json

  datatype Body =
    | Object(doc: Doc)
    | List(docs: seq<Doc>)
    | Text(text: string)

  datatype Reply = Reply(status: nat, body: Body)

  /** `res.status(status).json({ message: text })`. */
  function MessageReply(status: nat, text: string): Reply {
    Reply(status, Object(map["message" := Str(text)]))
  }

  /** Replies with different messages are different replies. */
  lemma MessagesDiffer(status: nat, a: string, b: string)
    requires a != b
    ensures MessageReply(status, a) != MessageReply(status, b)
  {
    assert MessageReply(status, a).body.doc["message"] == Str(a);
  }
}

=== FILE: json.dfy ===
/** JSON request bodies and stored documents, and the JavaScript operations
    the handlers apply to them: reading a key that may be absent, truthiness
    (`!x`, `Boolean(x)`), nullish defaulting (`x ?? d`), object spread
    (`{...a, ...b}`), dropping a key (a projection), and finding a document by
    its `_id` in an ordered collection (`findIndex`, `findOne`). */
module Json {
  import opened Options
  import opened Seqs

  /** A scalar JSON value, plus the `Date` the store stamps on records. */
  datatype Value =
    | Null
    | Bool(b: bool)
    | Num(n: int)
    | Str(s: string)
    | Date(ms: int)

  /** A JSON object / stored document: key to value. */
  type Doc = map<string, Value>

  /** `d.k`, which is `undefined` (here `None`) when the key is absent. */
  function Field(d: Doc, k: string): (v: Option<Value>)
    ensures v.Some? <==> k in d
    ensures v.Some? ==> v.value == d[k]
  {
    if k in d then Some(d[k]) else None
  }

  /** JavaScript truthiness of a possibly-undefined value, i.e. `!!x`:
      `undefined`, `null`, `false`, `0` and `""` are falsy. */
  predicate Truthy(v: Option<Value>) {
    match v
    case None => false
    case Some(Null) => false
    case Some(Bool(b)) => b
    case Some(Num(n)) => n != 0
    case Some(Str(s)) => s != ""
    case Some(Date(_)) => true
  }

  /** `x ?? dflt`: the default replaces `undefined` and `null` only. */
  function OrDefault(v: Option<Value>, dflt: Value): (r: Value)
    ensures v.None? || v == Some(Null) ==> r == dflt
    ensures v.Some? && v.value != Null ==> r == v.value
  {
    match v
    case None => dflt
    case Some(Null) => dflt
    case Some(x) => x
  }

  /** `{...base, ...over}`: the keys of both, the value of `over` winning. */
  function Spread(base: Doc, over: Doc): (r: Doc)
    ensures r.Keys == base.Keys + over.Keys
    ensures forall k :: k in over ==> r[k] == over[k]
    ensures forall k :: k in base && k !in over ==> r[k] == base[k]
  {
    base + over
  }

  /** `d` with key `k` left out (a `{ projection: { k: 0 } }`). */
  function Omit(d: Doc, k: string): (r: Doc)
    ensures r.Keys == d.Keys - {k}
    ensures forall j :: j in r ==> r[j] == d[j]
  {
    map j | j in d && j != k :: d[j]
  }

  /** The document's `_id` is the string `id` (`doc._id === id`). */
  predicate HasId(d: Doc, id: string) {
    "_id" in d && d["_id"] == Str(id)
  }

  /** Position of the first document whose `_id` is `id`
      (`findIndex`, and the document `findOne({_id})` returns). */
  function FindIndex(docs: seq<Doc>, id: string): (r: Option<nat>)
    ensures r.Some? ==> r.value < |docs| && HasId(docs[r.value], id)
    ensures r.Some? ==> forall j :: 0 <= j < r.value ==> !HasId(docs[j], id)
    ensures r.None? <==> forall j :: 0 <= j < |docs| ==> !HasId(docs[j], id)
  {
    FindFirst(docs, (d: Doc) => HasId(d, id))
  }

  /** Every document carries an `_id`, and no two share one. */
  predicate UniqueIds(docs: seq<Doc>) {
    && (forall i :: 0 <= i < |docs| ==> "_id" in docs[i])
    && (forall i, j :: 0 <= i < j < |docs| ==> docs[i]["_id"] != docs[j]["_id"])
  }
}

=== FILE: mock_backend.dfy ===
/** The in-memory reference backend the client tests run against: a user
    list and items kept per user (`itemsByUser`), tokens of the form
    `token-<userId>`, and the account and item handlers. Every item operation
    works on the caller's own list only, so another user's item is exactly as
    invisible as one that does not exist. */
module MockBackend {
  import opened Options
  import opened Text
  import opened Decimal
  import opened Json
  import opened Seqs
  import opened Http

  const TokenPrefix := "token-"
  const UserPrefix := "user-"
  const ItemPrefix := "item-"

  const FieldsRequired := "Email and password are required"
  const UserExists := "User already exists"
  const UserCreated := "User created"
  const InvalidCredentials := "Invalid credentials"
  const TokenInvalid := "Invalid or expired token"
  const UserNotFound := "User not found"
  const ItemNotFound := "Item not found"
  const NotFound := "Not found"

  /** A test account; the password is kept in clear. */
  datatype MockUser = MockUser(id: string, email: Value, password: Value)

  datatype State = State(users: seq<MockUser>, itemsByUser: map<string, seq<Doc>>)

  /** A handler's reply together with the state after it ran. */
  datatype Handled = Handled(reply: Reply, state: State)

  /** The seeded state, which `resetTestData` restores. */
  function Initial(): State {
    var item := map["_id" := Str("item-1"), "name" := Str("Oat drink"), "amount" := Str("2"),
                     "notes" := Str("Barista edition"), "isChecked" := Bool(false),
                     "userId" := Str("user-1")];
    State([MockUser("user-1", Str("test@example.com"), Str("password123"))],
          map["user-1" := [item]])
  }

  /** `getUserIdFromAuthHeader`: the second space-separated piece of the
      header, when it starts with `token-`, with that prefix replaced away.
      The first piece (the scheme) is never looked at. */
  function UserIdFromHeader(header: Option<string>): (r: Option<string>)
    ensures r.Some? ==> header.Some? && ' ' !in r.value
    ensures r.Some? <==>
              && header.Some? && header.value != ""
              && |Split(header.value, ' ')| >= 2
              && StartsWith(Split(header.value, ' ')[1], TokenPrefix)
    ensures r.Some? ==> Split(header.value, ' ')[1] == TokenPrefix + r.value
  {
    if header.None? || header.value == "" then None
    else
      var pieces := Split(header.value, ' ');
      var token := if |pieces| >= 2 then pieces[1] else "";
      if token == "" || !StartsWith(token, TokenPrefix) then None
      else Some(ReplaceFirst(token, TokenPrefix, ""))
  }

  /** The caller as the handlers accept it: `if (!userId)` also turns away
      the empty id that the header `token-` alone produces. */
  function Caller(header: Option<string>): (r: Option<string>)
    ensures r.Some? <==>
              && header.Some? && header.value != "" && |Split(header.value, ' ')| >= 2
              && StartsWith(Split(header.value, ' ')[1], TokenPrefix)
              && |Split(header.value, ' ')[1]| > |TokenPrefix|
    ensures r.Some? ==> r.value != "" && Split(header.value, ' ')[1] == TokenPrefix + r.value
  {
    match UserIdFromHeader(header)
    case Some(id) => if id == "" then None else Some(id)
    case None => None
  }

  /** The caller's own list, `itemsByUser[userId] ?? []`. */
  function OwnList(s: State, userId: string): seq<Doc> {
    if userId in s.itemsByUser then s.itemsByUser[userId] else []
  }

  /** `users.find((u) => u.email === email)`, an absent body key matching no one. */
  function FindUserByEmail(users: seq<MockUser>, email: Option<Value>): (r: Option<nat>)
    ensures r.Some? ==> r.value < |users| && Some(users[r.value].email) == email
    ensures r.Some? ==> forall j :: 0 <= j < r.value ==> Some(users[j].email) != email
    ensures r.None? <==> forall j :: 0 <= j < |users| ==> Some(users[j].email) != email
  {
    FindFirst(users, (u: MockUser) => Some(u.email) == email)
  }

  /** `users.find((u) => u._id === userId)`. */
  function FindUserById(users: seq<MockUser>, id: string): (r: Option<nat>)
    ensures r.Some? ==> r.value < |users| && users[r.value].id == id
    ensures r.Some? ==> forall j :: 0 <= j < r.value ==> users[j].id != id
    ensures r.None? <==> forall j :: 0 <= j < |users| ==> users[j].id != id
  {
    FindFirst(users, (u: MockUser) => u.id == id)
  }

  /** The id registration gives the `n`-th user: `user-<n>`. */
  function UserIdFor(n: nat): string {
    UserPrefix + NatToString(n)
  }

  /** The users as registration keeps them: the `i`-th has id `user-<i+1>`,
      and no two share an email. */
  ghost predicate Valid(s: State) {
    && CanonicalIds(s.users)
    && (forall i, j :: 0 <= i < j < |s.users| ==> s.users[i].email != s.users[j].email)
  }

  /** The `i`-th user has id `user-<i+1>`. */
  ghost predicate CanonicalIds(users: seq<MockUser>) {
    forall i :: 0 <= i < |users| ==> users[i].id == UserIdFor(i + 1)
  }

  /** `s` and `t` hold the same items for every user other than `userId`. */
  ghost predicate OthersUnchanged(s: State, t: State, userId: string) {
    forall other :: other != userId ==>
      && (other in s.itemsByUser <==> other in t.itemsByUser)
      && (other in s.itemsByUser ==> s.itemsByUser[other] == t.itemsByUser[other])
  }

  /** `POST /auth/login`: 401 "Invalid credentials" when no user has the
      email or the password differs, otherwise 200 with `token-<id>`. */
  function Login(s: State, body: Doc): (r: Reply)
    ensures r.status in {200, 401}
    ensures r.status == 401 ==> r == MessageReply(401, InvalidCredentials)
    ensures r.status == 200 <==>
              && FindUserByEmail(s.users, Field(body, "email")).Some?
              && Some(s.users[FindUserByEmail(s.users, Field(body, "email")).value].password) ==
                 Field(body, "password")
    ensures r.status == 200 ==>
              r.body == Object(map["token" := Str(TokenPrefix +
                          s.users[FindUserByEmail(s.users, Field(body, "email")).value].id)])
  {
    match FindUserByEmail(s.users, Field(body, "email"))
    case None => MessageReply(401, InvalidCredentials)
    case Some(i) =>
      if Some(s.users[i].password) != Field(body, "password") then MessageReply(401, InvalidCredentials)
      else Reply(200, Object(map["token" := Str(TokenPrefix + s.users[i].id)]))
  }

  /** `POST /auth/register`: 400 on a falsy field, 409 on a known email,
      otherwise one user `user-<n+1>` appended, an empty item list set for
      that id (replacing any list already kept under it), and 201. */
  function Register(s: State, body: Doc): (r: Handled)
    ensures r.reply.status in {201, 400, 409}
    ensures r.reply.status != 201 ==> r.state == s
    ensures !Truthy(Field(body, "email")) || !Truthy(Field(body, "password")) <==>
              r.reply == MessageReply(400, FieldsRequired)
    ensures r.reply == MessageReply(409, UserExists) <==>
              && Truthy(Field(body, "email")) && Truthy(Field(body, "password"))
              && FindUserByEmail(s.users, Field(body, "email")).Some?
    ensures && Truthy(Field(body, "email")) && Truthy(Field(body, "password"))
            && FindUserByEmail(s.users, Field(body, "email")).None?
            ==> r.reply.status == 201
    ensures r.reply.status == 201 ==>
              && r.reply == MessageReply(201, UserCreated)
              && r.state.users ==
                 s.users + [MockUser(UserIdFor(|s.users| + 1), body["email"], body["password"])]
              && r.state.itemsByUser == s.itemsByUser[UserIdFor(|s.users| + 1) := []]
  {
    MessagesDiffer(400, FieldsRequired, UserExists);
    var email := Field(body, "email");
    var password := Field(body, "password");
    if !Truthy(email) || !Truthy(password) then Handled(MessageReply(400, FieldsRequired), s)
    else if FindUserByEmail(s.users, email).Some? then Handled(MessageReply(409, UserExists), s)
    else
      var id := UserIdFor(|s.users| + 1);
      Handled(MessageReply(201, UserCreated),
              State(s.users + [MockUser(id, email.value, password.value)], s.itemsByUser[id := []]))
  }

  /** `GET /auth/me`: 401 without a usable token, 404 for an unknown id,
      otherwise the user's id and email with `createdAt` the current time
      (`nowIso`), and never the password. */
  function Me(s: State, header: Option<string>, nowIso: string): (r: Reply)
    ensures Caller(header).None? <==> r == MessageReply(401, TokenInvalid)
    ensures r == MessageReply(404, UserNotFound) <==>
              Caller(header).Some? && FindUserById(s.users, Caller(header).value).None?
    ensures Caller(header).Some? && FindUserById(s.users, Caller(header).value).Some? ==> r.status == 200
    ensures r.status == 200 ==>
              && Caller(header).Some?
              && var i := FindUserById(s.users, Caller(header).value);
                 && i.Some?
                 && r.body == Object(map["_id" := Str(s.users[i.value].id),
                                         "email" := s.users[i.value].email,
                                         "createdAt" := Str(nowIso)])
    ensures r.body.Object? ==> "password" !in r.body.doc
  {
    MessagesDiffer(401, TokenInvalid, UserNotFound);
    match Caller(header)
    case None => MessageReply(401, TokenInvalid)
    case Some(userId) =>
      match FindUserById(s.users, userId)
      case None => MessageReply(404, UserNotFound)
      case Some(i) =>
        Reply(200, Object(map["_id" := Str(s.users[i].id), "email" := s.users[i].email,
                              "createdAt" := Str(nowIso)]))
  }

  /** `GET /shopItem`: the caller's own items, `[]` when there are none. */
  function ListItems(s: State, header: Option<string>): (r: Reply)
    ensures Caller(header).None? ==> r == MessageReply(401, TokenInvalid)
    ensures Caller(header).Some? ==> r == Reply(200, List(OwnList(s, Caller(header).value)))
  {
    match Caller(header)
    case None => MessageReply(401, TokenInvalid)
    case Some(userId) => Reply(200, List(OwnList(s, userId)))
  }

  /** `GET /shopItem/:id` as the scoped server's tests require it (the
      in-memory backend has no such handler): the caller's item with that id,
      or 404 "Not found" -- whether the id is unknown or someone else's. */
  function GetItem(s: State, header: Option<string>, id: string): (r: Reply)
    ensures Caller(header).None? ==> r == MessageReply(401, TokenInvalid)
    ensures Caller(header).Some? ==>
              var own := OwnList(s, Caller(header).value);
              && (r == Reply(404, Text(NotFound)) <==> FindIndex(own, id).None?)
              && (r.status == 200 ==> r.body.Object? && r.body.doc in own && HasId(r.body.doc, id))
              && (FindIndex(own, id).Some? ==> r == Reply(200, Object(own[FindIndex(own, id).value])))
  {
    match Caller(header)
    case None => MessageReply(401, TokenInvalid)
    case Some(userId) =>
      var own := OwnList(s, userId);
      match FindIndex(own, id)
      case None => Reply(404, Text(NotFound))
      case Some(i) => Reply(200, Object(own[i]))
  }

  /** The item `POST /shopItem` stores: id `item-<now>`, `name`, `amount`
      and `notes` defaulting to `""` when absent or null, `isChecked` coerced
      to a boolean, and the caller's id stamped as `userId`. */
  function NewItem(body: Doc, userId: string, now: nat): (d: Doc)
    ensures d.Keys == {"_id", "name", "amount", "notes", "isChecked", "userId"}
    ensures HasId(d, ItemPrefix + NatToString(now)) && d["userId"] == Str(userId)
    ensures d["isChecked"] == Bool(Truthy(Field(body, "isChecked")))
    ensures forall k :: k in {"name", "amount", "notes"} ==> d[k] == OrDefault(Field(body, k), Str(""))
  {
    map["_id" := Str(ItemPrefix + NatToString(now)),
        "name" := OrDefault(Field(body, "name"), Str("")),
        "amount" := OrDefault(Field(body, "amount"), Str("")),
        "notes" := OrDefault(Field(body, "notes"), Str("")),
        "isChecked" := Bool(Truthy(Field(body, "isChecked"))),
        "userId" := Str(userId)]
  }

  /** `POST /shopItem`: the new item appended to the caller's list only
      (`now` is `Date.now()`); 201 with its id. */
  function CreateItem(s: State, header: Option<string>, body: Doc, now: nat): (r: Handled)
    ensures Caller(header).None? ==> r == Handled(MessageReply(401, TokenInvalid), s)
    ensures Caller(header).Some? ==>
              var userId := Caller(header).value;
              && r.reply == Reply(201, Object(map["insertedId" := Str(ItemPrefix + NatToString(now))]))
              && userId in r.state.itemsByUser
              && r.state.itemsByUser[userId] == OwnList(s, userId) + [NewItem(body, userId, now)]
              && r.state.users == s.users
              && OthersUnchanged(s, r.state, userId)
  {
    match Caller(header)
    case None => Handled(MessageReply(401, TokenInvalid), s)
    case Some(userId) =>
      var item := NewItem(body, userId, now);
      Handled(Reply(201, Object(map["insertedId" := item["_id"]])),
              s.(itemsByUser := s.itemsByUser[userId := OwnList(s, userId) + [item]]))
  }

  /** `PATCH /shopItem/:id`: looks in the caller's list only; no match is a
      404 "Item not found" with nothing changed; a match is replaced by
      `{...old, ...body}` and returned, every other item staying as it was. */
  function PatchItem(s: State, header: Option<string>, id: string, body: Doc): (r: Handled)
    ensures Caller(header).None? ==> r == Handled(MessageReply(401, TokenInvalid), s)
    ensures Caller(header).Some? ==>
              var userId := Caller(header).value;
              var own := OwnList(s, userId);
              && (FindIndex(own, id).None? <==> r.reply == Reply(404, Text(ItemNotFound)))
              && (FindIndex(own, id).None? ==> r.state == s)
              && (FindIndex(own, id).Some? ==>
                    var i := FindIndex(own, id).value;
                    && userId in r.state.itemsByUser
                    && r.state.itemsByUser[userId] == own[i := Spread(own[i], body)]
                    && r.reply == Reply(200, Object(Spread(own[i], body))))
              && r.state.users == s.users
              && OthersUnchanged(s, r.state, userId)
  {
    match Caller(header)
    case None => Handled(MessageReply(401, TokenInvalid), s)
    case Some(userId) =>
      var own := OwnList(s, userId);
      match FindIndex(own, id)
      case None => Handled(Reply(404, Text(ItemNotFound)), s)
      case Some(i) =>
        var merged := Spread(own[i], body);
        Handled(Reply(200, Object(merged)),
                s.(itemsByUser := s.itemsByUser[userId := own[i := merged]]))
  }

  /** `DELETE /shopItem/:id`: looks in the caller's list only; no match is a
      404 "Item not found"; a match is spliced out, the rest keeping their
      order, and the reply reports `deletedCount: 1`. */
  function DeleteItem(s: State, header: Option<string>, id: string): (r: Handled)
    ensures Caller(header).None? ==> r == Handled(MessageReply(401, TokenInvalid), s)
    ensures Caller(header).Some? ==>
              var userId := Caller(header).value;
              var own := OwnList(s, userId);
              && (FindIndex(own, id).None? <==> r.reply == Reply(404, Text(ItemNotFound)))
              && (FindIndex(own, id).None? ==> r.state == s)
              && (FindIndex(own, id).Some? ==>
                    && userId in r.state.itemsByUser
                    && r.state.itemsByUser[userId] == RemoveAt(own, FindIndex(own, id).value)
                    && r.reply == Reply(200, Object(map["deletedCount" := Num(1)])))
              && r.state.users == s.users
              && OthersUnchanged(s, r.state, userId)
  {
    match Caller(header)
    case None => Handled(MessageReply(401, TokenInvalid), s)
    case Some(userId) =>
      var own := OwnList(s, userId);
      match FindIndex(own, id)
      case None => Handled(Reply(404, Text(ItemNotFound)), s)
      case Some(i) =>
        Handled(Reply(200, Object(map["deletedCount" := Num(1)])),
                s.(itemsByUser := s.itemsByUser[userId := RemoveAt(own, i)]))
  }

  /** Creating an item under a timestamp no item of the caller's list carries
      as its id: the caller's list then shows it last, and a lookup of that
      id returns exactly the created item. */
  lemma CreateItemThenGet(s: State, header: Option<string>, body: Doc, now: nat)
    requires Caller(header).Some?
    requires FindIndex(OwnList(s, Caller(header).value), ItemPrefix + NatToString(now)).None?
    ensures var userId := Caller(header).value;
            var after := CreateItem(s, header, body, now).state;
            var item := NewItem(body, userId, now);
            && ListItems(after, header) == Reply(200, List(OwnList(s, userId) + [item]))
            && GetItem(after, header, ItemPrefix + NatToString(now)) == Reply(200, Object(item))
  {
    var userId := Caller(header).value;
    var own := OwnList(s, userId);
    var item := NewItem(body, userId, now);
    var id := ItemPrefix + NatToString(now);
    FindFirstAppend(own, item, (d: Doc) => HasId(d, id));
    assert FindIndex(own + [item], id) == Some(|own|);
    assert (own + [item])[|own|] == item;
  }

  /** Any header whose second space-separated piece is `token-` followed by
      a space-free id yields that id, whatever the first piece says and
      whatever follows after another space. */
  lemma UserIdFromTokenHeader(scheme: string, id: string, rest: string)
    requires ' ' !in scheme && ' ' !in id
    requires rest == "" || rest[0] == ' '
    ensures UserIdFromHeader(Some(scheme + " " + TokenPrefix + id + rest)) == Some(id)
  {
    var token := TokenPrefix + id;
    assert scheme + " " + TokenPrefix + id + rest == scheme + [' '] + token + rest;
    SecondPiece(scheme, ' ', token, rest);
    var h := scheme + " " + TokenPrefix + id + rest;
    assert Split(h, ' ')[1] == token;
    assert h != "" by { assert h[|scheme|] == ' '; }
    assert token[..|TokenPrefix|] == TokenPrefix;
    assert StartsWith(token, TokenPrefix);
    assert token[|TokenPrefix|..] == id;
    assert ReplaceFirst(token, TokenPrefix, "") == "" + id;
    assert "" + id == id;
    assert |Split(h, ' ')| >= 2 && token != "";
    assert UserIdFromHeader(Some(h)) == Some(ReplaceFirst(token, TokenPrefix, ""));
  }

  /** Registration ids are distinct: the `i`-th user's id names only it. */
  lemma CanonicalIdsDistinct(users: seq<MockUser>, i: nat, j: nat)
    requires CanonicalIds(users)
    requires i < |users| && j < |users| && i != j
    ensures users[i].id != users[j].id
  {
    if users[i].id == users[j].id {
      assert UserIdFor(i + 1)[|UserPrefix|..] == NatToString(i + 1);
      assert UserIdFor(j + 1)[|UserPrefix|..] == NatToString(j + 1);
      NatToStringInjective(i + 1, j + 1);
    }
  }

  /** The seeded state is valid, and registration keeps the state valid. */
  lemma RegisterPreservesValid(s: State, body: Doc)
    requires Valid(s)
    ensures Valid(Initial())
    ensures Valid(Register(s, body).state)
  {
    assert NatToString(1) == "1";
  }

  /** Ownership isolation: whether an item request of the caller succeeds, and
      what it answers, depends on the caller's own list only -- two states
      that agree on it give the same replies to every get, list, patch and
      delete, however the other users' items differ. */
  lemma RepliesDependOnOwnListOnly(s: State, t: State, header: Option<string>, id: string, body: Doc)
    requires Caller(header).Some? ==> OwnList(s, Caller(header).value) == OwnList(t, Caller(header).value)
    ensures ListItems(s, header) == ListItems(t, header)
    ensures GetItem(s, header, id) == GetItem(t, header, id)
    ensures PatchItem(s, header, id, body).reply == PatchItem(t, header, id, body).reply
    ensures DeleteItem(s, header, id).reply == DeleteItem(t, header, id).reply
  {
  }

  /** An id that only other users hold is answered exactly like an id nobody
      holds: 404, and nothing changes. */
  lemma ForeignItemIsNotFound(s: State, header: Option<string>, id: string, body: Doc)
    requires Caller(header).Some?
    requires forall j :: 0 <= j < |OwnList(s, Caller(header).value)| ==>
               !HasId(OwnList(s, Caller(header).value)[j], id)
    ensures GetItem(s, header, id) == Reply(404, Text(NotFound))
    ensures PatchItem(s, header, id, body) == Handled(Reply(404, Text(ItemNotFound)), s)
    ensures DeleteItem(s, header, id) == Handled(Reply(404, Text(ItemNotFound)), s)
  {
  }

  /** The whole account flow against a valid state: registering a new email,
      logging in with it, then using the token: `/me` names the new user and
      the new user's list is empty, even though other users hold items. */
  lemma RegisterLoginUse(s: State, email: string, password: string, nowIso: string)
    requires Valid(s)
    requires email != "" && password != ""
    requires forall j :: 0 <= j < |s.users| ==> s.users[j].email != Str(email)
    ensures var body := map["email" := Str(email), "password" := Str(password)];
            var reg := Register(s, body);
            var id := UserIdFor(|s.users| + 1);
            var header := Some("Bearer " + TokenPrefix + id);
            && reg.reply == MessageReply(201, UserCreated)
            && Login(reg.state, body) == Reply(200, Object(map["token" := Str(TokenPrefix + id)]))
            && Me(reg.state, header, nowIso) ==
                 Reply(200, Object(map["_id" := Str(id), "email" := Str(email), "createdAt" := Str(nowIso)]))
            && ListItems(reg.state, header) == Reply(200, List([]))
  {
    var body := map["email" := Str(email), "password" := Str(password)];
    var id := UserIdFor(|s.users| + 1);
    var u := MockUser(id, Str(email), Str(password));
    assert FindUserByEmail(s.users, Field(body, "email")).None?;
    var reg := Register(s, body);
    assert reg.state.users == s.users + [u];
    FindUserByEmailAppend(s.users, u);
    BearerCaller(|s.users| + 1);
    NextIdUnused(s);
    FindUserByIdAppend(s.users, u);
  }

  /** The header the client sends for a registered id names that caller. */
  lemma BearerCaller(n: nat)
    ensures Caller(Some("Bearer " + TokenPrefix + UserIdFor(n))) == Some(UserIdFor(n))
  {
    UserIdForShape(n);
    TokenCaller(UserIdFor(n));
  }

  /** `Bearer token-<id>` names the caller `<id>` for a non-empty id without spaces. */
  lemma TokenCaller(id: string)
    requires id != "" && ' ' !in id
    ensures Caller(Some("Bearer " + TokenPrefix + id)) == Some(id)
  {
    UserIdFromTokenHeader("Bearer", id, "");
    assert "Bearer" + " " + TokenPrefix + id + "" == "Bearer " + TokenPrefix + id;
  }

  /** A handed-out id is never empty and holds no space. */
  lemma UserIdForShape(n: nat)
    ensures UserIdFor(n) != "" && ' ' !in UserIdFor(n)
  {
    var digits := NatToString(n);
    assert AllDigits(digits);
    assert UserIdFor(n) == UserPrefix + digits;
  }

  /** The id the next registration hands out is held by no current user. */
  lemma NextIdUnused(s: State)
    requires Valid(s)
    ensures FindUserById(s.users, UserIdFor(|s.users| + 1)).None?
  {
    var id := UserIdFor(|s.users| + 1);
    var v := s.users + [MockUser(id, Null, Null)];
    forall j | 0 <= j < |s.users| ensures s.users[j].id != id {
      CanonicalIdsDistinct(v, j, |s.users|);
    }
  }

  lemma FindUserByEmailAppend(users: seq<MockUser>, u: MockUser)
    requires FindUserByEmail(users, Some(u.email)).None?
    ensures FindUserByEmail(users + [u], Some(u.email)) == Some(|users|)
  {
    FindFirstAppend(users, u, (v: MockUser) => Some(v.email) == Some(u.email));
  }

  lemma FindUserByIdAppend(users: seq<MockUser>, u: MockUser)
    requires FindUserById(users, u.id).None?
    ensures FindUserById(users + [u], u.id) == Some(|users|)
  {
    FindFirstAppend(users, u, (v: MockUser) => v.id == u.id);
  }
}

=== FILE: options.dfy ===
/** The optional-value datatype shared by every module of the model.
    `None` stands for JavaScript's `undefined`/`null` where the source reads
    a value that may be missing (a header, an environment variable, a body key). */
module Options {

  datatype Option<+T> = None | Some(value: T) {

    /** The value, or `default` when there is none (JavaScript's `x ?? default`
        for a value that can only be missing, never `null`). */
    function GetOr(default: T): T {
      match this
      case Some(v) => v
      case None => default
    }
  }
}

=== FILE: playback_speed.dfy ===
/** The playback-speed calculator: a length entered as hours, minutes and
    seconds, played at a speed multiplier, takes a new whole number of
    seconds; the page shows that new length and its difference from the
    original, both as "h hours m minutes s seconds" text.
    Inputs are whole numbers (`None` where `Number(...)` gives `NaN`), and
    the multiplier is the exact ratio `num / den` (the select offers values
    such as 0.5, 1.25 or 2). */
module PlaybackSpeed {
  import opened Options
  import opened Decimal
  import opened Text

  const InvalidLength := "Please enter a valid length of time"
  const NoSpeed := "Please select a speed multiplier"

  type Positive = n: nat | n > 0 witness 1

  datatype Speed = Unselected | Multiplier(num: Positive, den: Positive)

  /** A length split into hours, minutes and seconds; the parts may be out of
      range or negative on the way through the arithmetic. */
  datatype Clock = Clock(hours: int, minutes: int, seconds: int) {
    function Total(): int {
      hours * 3600 + minutes * 60 + seconds
    }

    /** Minutes and seconds are each between 0 and 59. */
    predicate InRange() {
      0 <= minutes < 60 && 0 <= seconds < 60
    }
  }

  /** What a click on "convert" shows: an alert, or the new length and the
      difference, each with its text. */
  datatype Shown =
    | Alert(message: string)
    | Converted(newTime: Clock, newText: string, difference: Clock, differenceText: string)

  /** The whole-second split of the click handler: hours, minutes of the
      remainder, seconds. */
  function Decompose(total: nat): (c: Clock)
    ensures 0 <= c.hours && c.InRange()
    ensures c.Total() == total
  {
    Clock(total / 3600, (total % 3600) / 60, total % 60)
  }

  /** The split is the only one with minutes and seconds in range. */
  lemma DecomposeUnique(c: Clock)
    requires c.InRange() && c.Total() >= 0
    ensures c == Decompose(c.Total())
  {
    var t := c.Total();
    var r := c.minutes * 60 + c.seconds;
    assert 0 <= r < 3600;
    assert t == c.hours * 3600 + r;
    assert t / 3600 == c.hours && t % 3600 == r by {
      DivMod3600(t, c.hours, r);
    }
    assert r / 60 == c.minutes && r % 60 == c.seconds by {
      DivMod60(r, c.minutes, c.seconds);
    }
    assert t % 60 == c.seconds by {
      assert t == (c.hours * 60 + c.minutes) * 60 + c.seconds;
      DivMod60(t, c.hours * 60 + c.minutes, c.seconds);
    }
  }

  /** Quotient and remainder by 60 are determined by their defining equation. */
  lemma DivMod60(a: int, q: int, r: int)
    requires 0 <= r < 60 && a == q * 60 + r
    ensures a / 60 == q && a % 60 == r
  {
  }

  /** Quotient and remainder by 3600 are determined by their defining equation. */
  lemma DivMod3600(a: int, q: int, r: int)
    requires 0 <= r < 3600 && a == q * 3600 + r
    ensures a / 3600 == q && a % 3600 == r
  {
  }

  /** The quotient rounds down: it times the divisor is at most `p`, one more
      times the divisor exceeds `p`. */
  lemma DivBounds(p: nat, d: Positive)
    ensures (p / d) * d <= p < (p / d + 1) * d
  {
    assert p == (p / d) * d + p % d;
  }

  lemma MulLe(a: int, b: int, c: nat)
    requires a <= b
    ensures a * c <= b * c
  {
    assert b * c == a * c + (b - a) * c;
  }

  /** `formatTime`: `"<h> hours "` when h is not 0, then `"<m> minutes"`
      when m is not 0, then `" <s> seconds"` when s is not 0. */
  function FormatTime(c: Clock): (r: string)
    ensures r == "" <==> c.hours == 0 && c.minutes == 0 && c.seconds == 0
  {
    var h := if c.hours != 0 then IntToString(c.hours) + " hours " else "";
    var m := if c.minutes != 0 then IntToString(c.minutes) + " minutes" else "";
    var s := if c.seconds != 0 then " " + IntToString(c.seconds) + " seconds" else "";
    h + m + s
  }

  /** How the shown text begins and ends: with the hours when there are any,
      else with the minutes; with the seconds when there are any, else with
      the minutes. */
  lemma FormatTimeShape(c: Clock)
    ensures var r := FormatTime(c);
            && (c.hours != 0 ==> StartsWith(r, IntToString(c.hours) + " hours "))
            && (c.hours == 0 && c.minutes != 0 ==> StartsWith(r, IntToString(c.minutes) + " minutes"))
            && (c.seconds != 0 ==> EndsWith(r, " " + IntToString(c.seconds) + " seconds"))
            && (c.seconds == 0 && c.minutes != 0 ==> EndsWith(r, IntToString(c.minutes) + " minutes"))
  {
    var h := if c.hours != 0 then IntToString(c.hours) + " hours " else "";
    var m := if c.minutes != 0 then IntToString(c.minutes) + " minutes" else "";
    var s := if c.seconds != 0 then " " + IntToString(c.seconds) + " seconds" else "";
    assert (h + m + s)[..|h|] == h;
    assert c.hours == 0 ==> (h + m + s)[..|m|] == m;
    assert (h + m + s)[|h + m + s| - |s|..] == s;
    assert c.seconds == 0 ==> (h + m + s)[|h + m + s| - |m|..] == m;
  }

  /** With all three parts non-zero, the whole text: the minutes sit
      between the hours and the seconds, one space on each side. */
  lemma FormatTimeAllParts(c: Clock)
    requires c.hours != 0 && c.minutes != 0 && c.seconds != 0
    ensures FormatTime(c) == IntToString(c.hours) + " hours " + IntToString(c.minutes) + " minutes "
                             + IntToString(c.seconds) + " seconds"
  {
    var m := IntToString(c.minutes);
    assert m + " minutes" + " " == m + " minutes ";
  }

  predicate EndsWith(s: string, suffix: string) {
    |suffix| <= |s| && s[|s| - |suffix|..] == suffix
  }

  /** The two borrows before the loops of `calculateNewTimeDiff`: 60 seconds
      when the original has 0 seconds and the new length does not, then 60
      minutes when the original has (by then) 0 minutes and the new length
      does not. The length is unchanged. */
  function PreBorrow(pre: Clock, now: Clock): (r: Clock)
    ensures r.Total() == pre.Total()
    ensures pre.seconds >= 0 ==> r.seconds >= 0 && r.seconds <= pre.seconds + 60
    ensures pre.minutes >= 0 ==> r.minutes >= -1 && (r.minutes == -1 ==> r.seconds == 60)
  {
    var a := if pre.seconds == 0 && now.seconds != 0
             then Clock(pre.hours, pre.minutes - 1, pre.seconds + 60) else pre;
    if a.minutes == 0 && now.minutes != 0 then Clock(a.hours - 1, a.minutes + 60, a.seconds) else a
  }

  /** The result of the two carrying loops: seconds of 60 and more carried
      into minutes, then minutes of 60 and more carried into hours. */
  function Normalise(c: Clock): (r: Clock)
    ensures r.Total() == c.Total()
    ensures r.seconds < 60 && r.minutes < 60
    ensures c.seconds < 60 ==> r.seconds == c.seconds
    ensures c.seconds >= 0 ==> r.seconds >= 0
    ensures c.seconds >= 0 && c.minutes >= -1 && (c.minutes == -1 ==> c.seconds >= 60) ==> r.minutes >= 0
  {
    var carryM := if c.seconds < 60 then 0 else c.seconds / 60;
    var s := c.seconds - 60 * carryM;
    var m1 := c.minutes + carryM;
    var carryH := if m1 < 60 then 0 else m1 / 60;
    Clock(c.hours + carryH, m1 - 60 * carryH, s)
  }

  /** The loops `while (preSeconds >= 60)` and `while (preMinutes >= 60)`
      themselves: they terminate, and end with `Normalise`'s result. */
  method NormaliseLoops(c: Clock) returns (r: Clock)
    ensures r == Normalise(c)
    ensures r.seconds < 60 && r.minutes < 60
  {
    var h, m, s := c.hours, c.minutes, c.seconds;
    ghost var carried := 0;
    while s >= 60
      invariant s == c.seconds - 60 * carried && m == c.minutes + carried && h == c.hours
      invariant carried == 0 || (c.seconds >= 60 && s >= 0)
      invariant c.seconds >= 60 ==> carried <= c.seconds / 60
      decreases s
    {
      s := s - 60;
      m := m + 1;
      carried := carried + 1;
    }
    assert c.seconds >= 60 ==> carried == c.seconds / 60 by {
      if c.seconds >= 60 {
        DivMod60(c.seconds, carried, s);
      }
    }
    ghost var m1 := m;
    carried := 0;
    while m >= 60
      invariant m == m1 - 60 * carried && h == c.hours + carried
      invariant carried == 0 || (m1 >= 60 && m >= 0)
      invariant m1 >= 60 ==> carried <= m1 / 60
      decreases m
    {
      m := m - 60;
      h := h + 1;
      carried := carried + 1;
    }
    assert m1 >= 60 ==> carried == m1 / 60 by {
      if m1 >= 60 {
        DivMod60(m1, carried, m);
      }
    }
    r := Clock(h, m, s);
  }

  /** The signed difference of the normalised original and the new length:
      original minus new when the speed is above 1, new minus original
      otherwise. */
  function Difference(pre: Clock, now: Clock, faster: bool): (d: Clock)
    ensures d.Total() == if faster then pre.Total() - now.Total() else now.Total() - pre.Total()
  {
    if faster then Clock(pre.hours - now.hours, pre.minutes - now.minutes, pre.seconds - now.seconds)
    else Clock(now.hours - pre.hours, now.minutes - pre.minutes, now.seconds - pre.seconds)
  }

  /** The borrows and loops before the difference only re-split the
      original length, into minutes and seconds in range. */
  lemma NormalisedInRange(pre: Clock, now: Clock)
    requires pre.hours >= 0 && pre.minutes >= 0 && pre.seconds >= 0
    ensures Normalise(PreBorrow(pre, now)).InRange()
    ensures Normalise(PreBorrow(pre, now)).Total() == pre.Total()
  {
  }

  /** So they end at the original length's standard split. */
  lemma NormalisedOriginal(pre: Clock, now: Clock)
    requires pre.hours >= 0 && pre.minutes >= 0 && pre.seconds >= 0
    ensures Normalise(PreBorrow(pre, now)) == Decompose(pre.Total())
  {
    NormalisedInRange(pre, now);
    DecomposeUnique(Normalise(PreBorrow(pre, now)));
  }

  /** `calculateNewTimeDiff` as written: after the borrows and loops it
      borrows an hour for negative minutes first and a minute for negative
      seconds second, so the minute taken for the seconds can leave the
      minutes at -1. The length is right; the split can be out of range. */
  function CalculateNewTimeDiff(pre: Clock, now: Clock, faster: bool): (r: Clock)
    requires pre.hours >= 0 && pre.minutes >= 0 && pre.seconds >= 0
    requires now.InRange()
    ensures r.Total() == if faster then pre.Total() - now.Total() else now.Total() - pre.Total()
    ensures 0 <= r.seconds < 60 && -1 <= r.minutes < 60
  {
    NormalisedInRange(pre, now);
    var p := Normalise(PreBorrow(pre, now));
    var d := Difference(p, now, faster);
    var a := if d.minutes < 0 then Clock(d.hours - 1, d.minutes + 60, d.seconds) else d;
    if a.seconds < 0 then Clock(a.hours, a.minutes - 1, a.seconds + 60) else a
  }

  /** The borrowing as intended: seconds first, then minutes, so both end
      in range; for a length that is not negative this is its split. */
  function BorrowInRange(d: Clock): (r: Clock)
    requires -60 < d.seconds < 60 && -60 < d.minutes < 60
    ensures r.Total() == d.Total()
    ensures r.InRange()
    ensures d.Total() >= 0 ==> r == Decompose(d.Total())
  {
    var a := if d.seconds < 0 then Clock(d.hours, d.minutes - 1, d.seconds + 60) else d;
    var r := if a.minutes < 0 then Clock(a.hours - 1, a.minutes + 60, a.seconds) else a;
    assert d.Total() >= 0 ==> r == Decompose(d.Total()) by {
      if d.Total() >= 0 {
        DecomposeUnique(r);
      }
    }
    r
  }

  /** `calculateNewTimeDiff` with the borrows in the intended order: the
      standard split of the signed difference whenever that is not negative. */
  function TimeDiff(pre: Clock, now: Clock, faster: bool): (r: Clock)
    requires pre.hours >= 0 && pre.minutes >= 0 && pre.seconds >= 0
    requires now.InRange()
    ensures r.Total() == if faster then pre.Total() - now.Total() else now.Total() - pre.Total()
    ensures r.InRange()
    ensures r.Total() >= 0 ==> r == Decompose(r.Total())
  {
    NormalisedInRange(pre, now);
    var p := Normalise(PreBorrow(pre, now));
    BorrowInRange(Difference(p, now, faster))
  }

  /** The new length in whole seconds: the original length divided by the
      multiplier, rounded down. */
  function NewLength(length: nat, num: Positive, den: Positive): (n: nat)
    ensures num > den ==> n <= length
    ensures num <= den ==> n >= length
    ensures n * num <= length * den < (n + 1) * num
  {
    var p := length * den;
    var n := p / num;
    DivBounds(p, num);
    assert num > den ==> n <= length by {
      if num > den { QuotientNotAbove(length, num, den, n); }
    }
    assert num <= den ==> n >= length by {
      if num <= den { QuotientNotBelow(length, num, den, n); }
    }
    n
  }

  /** A floor quotient `n` of `length * den / num` with `den < num` does not
      exceed `length`. */
  lemma QuotientNotAbove(length: nat, num: Positive, den: Positive, n: nat)
    requires n * num <= length * den && den < num
    ensures n <= length
  {
    MulLe(den, num, length);
    if n > length {
      MulLe(length + 1, n, num);
    }
  }

  /** A floor quotient `n` of `length * den / num` with `num <= den` is at
      least `length`. */
  lemma QuotientNotBelow(length: nat, num: Positive, den: Positive, n: nat)
    requires length * den < (n + 1) * num && num <= den
    ensures n >= length
  {
    MulLe(num, den, length);
    if n < length {
      MulLe(n + 1, length, num);
    }
  }

  /** The click handler. Missing inputs count as 0; a length of 0 or with a
      negative part, then an unselected speed, raise their alerts; otherwise
      the new length and the difference (larger minus smaller) are shown. */
  function Convert(hours: Option<int>, minutes: Option<int>, seconds: Option<int>, speed: Speed): (r: Shown)
    ensures var pre := Clock(hours.GetOr(0), minutes.GetOr(0), seconds.GetOr(0));
            && (r == Alert(InvalidLength) <==>
                  pre.hours + pre.minutes + pre.seconds == 0 || pre.hours < 0 || pre.minutes < 0 || pre.seconds < 0)
            && (r == Alert(NoSpeed) <==>
                  pre.hours + pre.minutes + pre.seconds != 0 && pre.hours >= 0 && pre.minutes >= 0
                  && pre.seconds >= 0 && speed.Unselected?)
            && (r.Converted? ==>
                  && speed.Multiplier?
                  && var n := NewLength(pre.Total(), speed.num, speed.den);
                     && r.newTime == Decompose(n)
                     && r.difference == Decompose(if speed.num > speed.den then pre.Total() - n else n - pre.Total())
                     && r.newText == FormatTime(r.newTime)
                     && r.differenceText == FormatTime(r.difference))
  {
    var pre := Clock(hours.GetOr(0), minutes.GetOr(0), seconds.GetOr(0));
    if pre.hours + pre.minutes + pre.seconds == 0 || pre.hours < 0 || pre.minutes < 0 || pre.seconds < 0 then
      Alert(InvalidLength)
    else if speed.Unselected? then Alert(NoSpeed)
    else ConvertLength(pre, speed.num, speed.den)
  }

  /** The shown result for a valid length and a chosen multiplier: the new
      length split into hours, minutes and seconds, and the difference between
      the two lengths, larger minus smaller. */
  function ConvertLength(pre: Clock, num: Positive, den: Positive): (r: Shown)
    requires pre.hours >= 0 && pre.minutes >= 0 && pre.seconds >= 0
    ensures r.Converted?
    ensures var n := NewLength(pre.Total(), num, den);
            && r.newTime == Decompose(n)
            && r.difference == Decompose(if num > den then pre.Total() - n else n - pre.Total())
            && r.newText == FormatTime(r.newTime)
            && r.differenceText == FormatTime(r.difference)
  {
    var length := pre.Total();
    var n := NewLength(length, num, den);
    var now := Decompose(n);
    var faster := num > den;
    var diff := TimeDiff(pre, now, faster);
    assert diff.Total() == if faster then length - n else n - length;
    Converted(now, FormatTime(now), diff, FormatTime(diff))
  }

  /** The two borrow orders differ only where the as-written one leaves the
      minutes at -1: whenever its minutes are not negative and the
      difference is not negative, both give the standard split. */
  lemma AsWrittenAgreesInRange(pre: Clock, now: Clock, faster: bool)
    requires pre.hours >= 0 && pre.minutes >= 0 && pre.seconds >= 0
    requires now.InRange()
    requires CalculateNewTimeDiff(pre, now, faster).minutes >= 0
    requires CalculateNewTimeDiff(pre, now, faster).Total() >= 0
    ensures CalculateNewTimeDiff(pre, now, faster) == TimeDiff(pre, now, faster)
  {
    DecomposeUnique(CalculateNewTimeDiff(pre, now, faster));
  }

  /** The borrow order as written goes wrong: 1 h 59 min at double speed
      takes 59 min 30 s, half an hour less, yet the difference comes out as
      1 hour, -1 minutes and 30 seconds. The intended order gives 59 min 30 s. */
  lemma BorrowOrderCounterexample()
    ensures var pre := Clock(1, 59, 0);
            var now := Decompose(NewLength(pre.Total(), 2, 1));
            && now == Clock(0, 59, 30)
            && CalculateNewTimeDiff(pre, now, true) == Clock(1, -1, 30)
            && FormatTime(CalculateNewTimeDiff(pre, now, true)) == "1 hours -1 minutes 30 seconds"
            && TimeDiff(pre, now, true) == Clock(0, 59, 30)
  {
    var pre := Clock(1, 59, 0);
    assert pre.Total() == 7140;
    assert NewLength(7140, 2, 1) == 3570;
    assert Decompose(3570) == Clock(0, 59, 30) by {
      DivMod3600(3570, 0, 3570);
      DivMod60(3570, 59, 30);
    }
    var now := Clock(0, 59, 30);
    assert PreBorrow(pre, now) == Clock(1, 58, 60);
    assert Normalise(Clock(1, 58, 60)) == Clock(1, 59, 0) by {
      DivMod60(60, 1, 0);
    }
    assert Difference(Clock(1, 59, 0), now, true) == Clock(1, 0, -30);
    FormatCounterexample();
  }

  /** The text the as-written difference of that example is shown as. */
  lemma FormatCounterexample()
    ensures FormatTime(Clock(1, -1, 30)) == "1 hours -1 minutes 30 seconds"
  {
    CounterexamplePieces();
    assert "1 hours " + "-1 minutes" + " 30 seconds" == "1 hours -1 minutes 30 seconds";
  }

  /** The three pieces of that text. */
  lemma CounterexamplePieces()
    ensures FormatTime(Clock(1, -1, 30)) == "1 hours " + "-1 minutes" + " 30 seconds"
  {
    SmallNumerals();
  }

  /** The numerals of that example. */
  lemma SmallNumerals()
    ensures IntToString(1) == "1" && IntToString(-1) == "-1" && IntToString(30) == "30"
  {
    assert NatToString(1) == "1";
    assert NatToString(30) == NatToString(3) + "0";
  }
}

=== FILE: reset_db.dfy ===
/** The start of the end-to-end database reset script: it reads the
    connection string and the database name from the environment and refuses
    to go on for a name that looks like a production or development
    database. The environment is a map from variable names to values; the
    reset itself (connecting and clearing the collections) is not modelled. */
module ResetDb {
  import opened Options
  import opened Text

  const AtlasUri := "ATLAS_URI"
  const DbNameVar := "E2E_DB_NAME"
  const DefaultDbName := "shopping_list_test_e2e"

  /** The names refused as they are, letter case included. */
  const Forbidden: seq<string> := ["shopping_list", "prod", "production", "main"]

  /** How the script's start ends: exit 1 for a missing variable, exit 1 for
      a refused name, or on to the reset with the URI and name. */
  datatype Startup =
    | MissingVar(name: string)
    | Refused(dbName: string)
    | Proceed(uri: string, dbName: string)

  /** `requireEnv`: the value, or nothing (exit 1) when the variable is
      unset or empty. */
  function RequireEnv(env: map<string, string>, name: string): (r: Option<string>)
    ensures r.None? <==> name !in env || env[name] == ""
    ensures r.Some? ==> r.value == env[name]
  {
    if name in env && env[name] != "" then Some(env[name]) else None
  }

  /** `process.env.E2E_DB_NAME || "shopping_list_test_e2e"`. */
  function DbName(env: map<string, string>): (name: string)
    ensures DbNameVar in env && env[DbNameVar] != "" ==> name == env[DbNameVar]
    ensures DbNameVar !in env || env[DbNameVar] == "" ==> name == DefaultDbName
  {
    if DbNameVar in env && env[DbNameVar] != "" then env[DbNameVar] else DefaultDbName
  }

  /** `looksForbidden`: one of the listed names exactly, or containing
      "prod" in any letter case, or "shopping_list" in any letter case. Of
      the listed names only "main" adds anything to the two case-blind
      rules. */
  function LooksForbidden(name: string): (b: bool)
    ensures b <==> name == "main" || Contains(ToLower(name), "prod") || ToLower(name) == "shopping_list"
  {
    assert name == "shopping_list" ==> ToLower(name) == "shopping_list" by {
      if name == "shopping_list" { ToLowerOfLower(name); }
    }
    assert name == "prod" || name == "production" ==> Contains(ToLower(name), "prod") by {
      if name == "prod" || name == "production" {
        ToLowerOfLower(name);
        assert OccursAt(ToLower(name), "prod", 0);
      }
    }
    || name in Forbidden
    || Contains(ToLower(name), "prod")
    || ToLower(name) == "shopping_list"
  }

  /** The script's start: the URI is required first, then the name is checked. */
  function Start(env: map<string, string>): (r: Startup)
    ensures r == MissingVar(AtlasUri) <==> AtlasUri !in env || env[AtlasUri] == ""
    ensures r.Refused? <==> RequireEnv(env, AtlasUri).Some? && LooksForbidden(DbName(env))
    ensures r.Proceed? ==> r.uri == env[AtlasUri] && r.uri != "" && r.dbName == DbName(env)
    ensures r.Proceed? ==> !LooksForbidden(r.dbName)
  {
    match RequireEnv(env, AtlasUri)
    case None => MissingVar(AtlasUri)
    case Some(uri) =>
      var name := DbName(env);
      if LooksForbidden(name) then Refused(name) else Proceed(uri, name)
  }

  /** Lower-casing leaves a text that has no upper-case ASCII letter as it is. */
  lemma ToLowerOfLower(s: string)
    requires forall i :: 0 <= i < |s| ==> !('A' <= s[i] <= 'Z')
    ensures ToLower(s) == s
  {
  }

  /** "shopping_list" is refused in every letter case, and so is every name
      with "prod" in it in any case. */
  lemma CaseBlindRefusals(env: map<string, string>, name: string)
    requires RequireEnv(env, AtlasUri).Some?
    requires DbNameVar in env && env[DbNameVar] == name && name != ""
    requires ToLower(name) == "shopping_list" || Contains(ToLower(name), "prod")
    ensures Start(env) == Refused(name)
  {
  }

  /** The default name passes the check, so with only the URI set the
      script goes on to reset "shopping_list_test_e2e". */
  lemma DefaultAccepted(env: map<string, string>)
    requires RequireEnv(env, AtlasUri).Some?
    requires DbNameVar !in env
    ensures Start(env) == Proceed(env[AtlasUri], DefaultDbName)
  {
    var d := DefaultDbName;
    ToLowerOfLower(d);
    forall i | 0 <= i <= |d| - 4 ensures !OccursAt(d, "prod", i) {
      assert d[i..i + 4][0] == d[i] && d[i..i + 4][1] == d[i + 1];
      assert d[i] != 'p' || d[i + 1] != 'r';
    }
  }

  /** The exact-name list is case-sensitive: "Main" is not refused. */
  lemma MainIsCaseSensitive()
    ensures LooksForbidden("main")
    ensures !LooksForbidden("Main")
  {
    assert ToLower("Main") == "main";
    forall i | 0 <= i <= 0 ensures !OccursAt("main", "prod", i) {
      assert "main"[0] != "prod"[0];
    }
  }
}

=== FILE: seqs.dfy ===
/** Sequence helpers shared by the components. */
module Seqs {
  import opened Options

  /** The position of the first element satisfying `f` (`Array.prototype.find`,
      `findIndex`, and `findOne` over a collection in insertion order). */
  function FindFirst<T>(s: seq<T>, f: T -> bool): (r: Option<nat>)
    ensures r.Some? ==> r.value < |s| && f(s[r.value])
    ensures r.Some? ==> forall j :: 0 <= j < r.value ==> !f(s[j])
    ensures r.None? <==> forall j :: 0 <= j < |s| ==> !f(s[j])
  {
    if |s| == 0 then None
    else if f(s[0]) then Some(0)
    else
      match FindFirst(s[1..], f)
      case None => None
      case Some(j) => Some(j + 1)
  }

  /** Appending an element that satisfies `f` to a sequence with none makes
      it the first match. */
  lemma FindFirstAppend<T>(s: seq<T>, x: T, f: T -> bool)
    requires FindFirst(s, f).None? && f(x)
    ensures FindFirst(s + [x], f) == Some(|s|)
  {
    assert (s + [x])[|s|] == x;
    assert forall j :: 0 <= j < |s| ==> (s + [x])[j] == s[j];
  }

  /** `s` with the element at `i` spliced out (`list.splice(i, 1)`,
      `element.remove()` on the `i`-th row). */
  function RemoveAt<T>(s: seq<T>, i: nat): (r: seq<T>)
    requires i < |s|
    ensures |r| == |s| - 1
    ensures forall j :: 0 <= j < i ==> r[j] == s[j]
    ensures forall j :: i <= j < |r| ==> r[j] == s[j + 1]
  {
    s[..i] + s[i + 1..]
  }
}

=== FILE: shop_item_routes.dfy ===
/** The item routes of the first shopping-list server (`/item`): list, get by
    id, create, partial update and delete over one `shopItems` collection,
    with no owner filtering. Documents are held in insertion order; `_id` is
    a key of each document, assigned by the database on insert (`newId`).
    `fault` stands for a store failure inside the handlers' `try` blocks. */
module ShopItemRoutes {
  import opened Options
  import opened Json
  import opened Seqs
  import opened Http

  const NotFound := "Not found"
  const ItemNotFound := "Item not found"
  const AddError := "Error adding item"
  const UpdateError := "Error updating item"
  const DeleteError := "Error deleting item"

  type Collection = seq<Doc>

  /** A handler's reply together with the collection after it ran. */
  datatype Handled = Handled(reply: Reply, items: Collection)

  /** The body the driver's `insertOne` result serialises to. */
  function InsertResult(id: string): Doc {
    map["acknowledged" := Bool(true), "insertedId" := Str(id)]
  }

  /** The body the driver's `deleteOne` result serialises to. */
  function DeleteResult(count: nat): Doc {
    map["acknowledged" := Bool(true), "deletedCount" := Num(count)]
  }

  /** `GET /`: every document of the collection, whoever created it. */
  function ListItems(items: Collection): (r: Reply)
    ensures r.status == 200 && r.body.List?
    ensures |r.body.docs| == |items|
    ensures forall i :: 0 <= i < |items| ==> r.body.docs[i] == items[i]
  {
    Reply(200, List(items))
  }

  /** `GET /:id` as written: `res.send(...).status(404)` sets the status after
      the reply has been sent, so a missing item is answered "Not found" with
      the default status 200. */
  function GetById(items: Collection, id: string): (r: Reply)
    ensures r.status == 200
    ensures FindIndex(items, id).Some? ==> r.body == Object(items[FindIndex(items, id).value])
    ensures FindIndex(items, id).None? ==> r.body == Text(NotFound)
  {
    match FindIndex(items, id)
    case None => Reply(200, Text(NotFound))
    case Some(i) => Reply(200, Object(items[i]))
  }

  /** `GET /:id` as evidently intended: a missing item is a 404 "Not found",
      a found one a 200 with the document. */
  function GetByIdIntended(items: Collection, id: string): (r: Reply)
    ensures r.status == 404 <==> forall j :: 0 <= j < |items| ==> !HasId(items[j], id)
    ensures r.status == 404 ==> r.body == Text(NotFound)
    ensures r.status == 200 ==> r.body.Object? && r.body.doc in items && HasId(r.body.doc, id)
    ensures r.status in {200, 404}
  {
    match FindIndex(items, id)
    case None => Reply(404, Text(NotFound))
    case Some(i) => Reply(200, Object(items[i]))
  }

  /** The difference the status-after-send ordering makes: for an id that is
      not stored, the handler as written reports success (200) where a 404 was
      meant. */
  lemma GetByIdMissingIsNot404(items: Collection, id: string)
    requires forall j :: 0 <= j < |items| ==> !HasId(items[j], id)
    ensures GetById(items, id) == Reply(200, Text(NotFound))
    ensures GetByIdIntended(items, id) == Reply(404, Text(NotFound))
  {
  }

  /** The document `POST /` inserts: exactly `name`, `amount`, `notes` and
      `isChecked` copied from the body, with no validation; an absent key
      becomes `null` (the driver stores `undefined` as `null`); every other
      body key is dropped. */
  function NewDocument(body: Doc, newId: string): (d: Doc)
    ensures d.Keys == {"_id", "name", "amount", "notes", "isChecked"}
    ensures HasId(d, newId)
    ensures forall k :: k in d && k != "_id" ==> d[k] == Field(body, k).GetOr(Null)
  {
    map["_id" := Str(newId),
        "name" := Field(body, "name").GetOr(Null),
        "amount" := Field(body, "amount").GetOr(Null),
        "notes" := Field(body, "notes").GetOr(Null),
        "isChecked" := Field(body, "isChecked").GetOr(Null)]
  }

  /** `POST /`: appends the new document and answers with the insert result.
      The later `.status(204)` comes after the reply was sent, so the status
      sent is 200. A store failure answers 500 and inserts nothing. */
  function Create(items: Collection, body: Doc, newId: string, fault: bool): (r: Handled)
    ensures fault ==> r == Handled(Reply(500, Text(AddError)), items)
    ensures !fault ==> r.items == items + [NewDocument(body, newId)]
    ensures !fault ==> r.reply == Reply(200, Object(InsertResult(newId)))
  {
    if fault then Handled(Reply(500, Text(AddError)), items)
    else Handled(Reply(200, Object(InsertResult(newId))), items + [NewDocument(body, newId)])
  }

  /** The collection after a `$set` of `body` on document `i`: only that
      document changes, every body key is written over it and every other
      key is kept. */
  predicate PatchedAt(items: Collection, after: Collection, i: nat, body: Doc)
    requires i < |items|
  {
    && |after| == |items|
    && (forall j :: 0 <= j < |items| && j != i ==> after[j] == items[j])
    && after[i].Keys == items[i].Keys + body.Keys
    && (forall k :: k in body ==> after[i][k] == body[k])
    && (forall k :: k in items[i] && k !in body ==> after[i][k] == items[i][k])
  }

  /** `PATCH /:id` with `{ $set: body }`, two store calls: `updateOne`, then
      `findOne` to read the document back. No matching document is a 404
      "Item not found" and changes nothing. A matching document gets every
      body key written over it and keeps all its other keys; no other
      document changes; the reply is the document as it is after the update.
      A body that names `_id` asks the store to change an immutable field (a
      JSON string is never the stored ObjectId), which the store refuses:
      500. `updateFault` is a failure up to and including `updateOne`, which
      changes nothing; `readFault` is a failure of the read-back, which comes
      after the update has landed, and still answers 500. */
  function Patch(items: Collection, id: string, body: Doc, updateFault: bool, readFault: bool): (r: Handled)
    ensures r.reply.status in {200, 404, 500}
    ensures r.reply.status == 404 ==> r.items == items
    ensures r.reply == Reply(404, Text(ItemNotFound)) <==> !updateFault && FindIndex(items, id).None?
    ensures updateFault ==> r == Handled(Reply(500, Text(UpdateError)), items)
    ensures !updateFault && FindIndex(items, id).Some? && "_id" in body ==>
              r == Handled(Reply(500, Text(UpdateError)), items)
    ensures !updateFault && FindIndex(items, id).Some? && "_id" !in body ==>
              && PatchedAt(items, r.items, FindIndex(items, id).value, body)
              && (readFault ==> r.reply == Reply(500, Text(UpdateError)))
              && (!readFault ==> r.reply.status == 200)
    ensures r.reply.status == 500 && r.items != items ==> readFault
    ensures r.reply.status == 200 ==>
              && FindIndex(items, id).Some?
              && var i := FindIndex(items, id).value;
                 && PatchedAt(items, r.items, i, body)
                 && r.reply == Reply(200, Object(r.items[i]))
  {
    if updateFault then Handled(Reply(500, Text(UpdateError)), items)
    else
      match FindIndex(items, id)
      case None => Handled(Reply(404, Text(ItemNotFound)), items)
      case Some(i) =>
        if "_id" in body then Handled(Reply(500, Text(UpdateError)), items)
        else
          var updated := items[i := Spread(items[i], body)];
          if readFault then Handled(Reply(500, Text(UpdateError)), updated)
          else Handled(Reply(200, Object(updated[i])), updated)
  }

  /** A failed read-back leaves the collection just as a successful patch
      does: the 500 hides an update that has landed. */
  lemma PatchReadFaultLandsUpdate(items: Collection, id: string, body: Doc)
    requires FindIndex(items, id).Some? && "_id" !in body
    ensures Patch(items, id, body, false, true).reply == Reply(500, Text(UpdateError))
    ensures Patch(items, id, body, false, true).items == Patch(items, id, body, false, false).items
    ensures Patch(items, id, body, false, true).items != items <==> exists k :: k in body && (k !in items[FindIndex(items, id).value] || items[FindIndex(items, id).value][k] != body[k])
  {
    var i := FindIndex(items, id).value;
    var after := Patch(items, id, body, false, false).items;
    if forall k :: k in body ==> k in items[i] && items[i][k] == body[k] {
      assert after[i] == items[i];
      assert after == items;
    } else {
      var k :| k in body && !(k in items[i] && items[i][k] == body[k]);
      assert after[i][k] == body[k];
      assert after[i] != items[i];
    }
  }

  /** `DELETE /:id`: removes the first document with that id, if any, and
      reports the driver's count; there is no 404 branch. */
  function Delete(items: Collection, id: string, fault: bool): (r: Handled)
    ensures fault ==> r == Handled(Reply(500, Text(DeleteError)), items)
    ensures !fault && FindIndex(items, id).None? ==>
              r == Handled(Reply(200, Object(DeleteResult(0))), items)
    ensures !fault && FindIndex(items, id).Some? ==>
              && r.reply == Reply(200, Object(DeleteResult(1)))
              && r.items == RemoveAt(items, FindIndex(items, id).value)
  {
    if fault then Handled(Reply(500, Text(DeleteError)), items)
    else
      match FindIndex(items, id)
      case None => Handled(Reply(200, Object(DeleteResult(0))), items)
      case Some(i) => Handled(Reply(200, Object(DeleteResult(1))), RemoveAt(items, i))
  }

  /** Creating with a fresh id keeps ids unique, and the created document is
      then what a lookup of that id returns. */
  lemma CreateThenGet(items: Collection, body: Doc, newId: string)
    requires UniqueIds(items)
    requires forall j :: 0 <= j < |items| ==> !HasId(items[j], newId)
    ensures var after := Create(items, body, newId, false).items;
            && UniqueIds(after)
            && GetByIdIntended(after, newId) == Reply(200, Object(NewDocument(body, newId)))
  {
    var d := NewDocument(body, newId);
    var after := items + [d];
    assert after[|items|] == d;
    assert FindIndex(after, newId) == Some(|items|);
    forall i, j | 0 <= i < j < |after| ensures after[i]["_id"] != after[j]["_id"] {
      if j == |items| {
        assert after[i] == items[i];
        assert !HasId(items[i], newId);
      }
    }
  }

  /** A patch keeps ids unique: it cannot touch `_id`. */
  lemma PatchPreservesUniqueIds(items: Collection, id: string, body: Doc,
                                updateFault: bool, readFault: bool)
    requires UniqueIds(items)
    ensures UniqueIds(Patch(items, id, body, updateFault, readFault).items)
  {
    var r := Patch(items, id, body, updateFault, readFault);
    if r.items != items {
      var i := FindIndex(items, id).value;
      assert "_id" !in body;
      assert r.items[i]["_id"] == items[i]["_id"];
      forall a, b | 0 <= a < b < |r.items| ensures r.items[a]["_id"] != r.items[b]["_id"] {
        assert r.items[a]["_id"] == items[a]["_id"];
        assert r.items[b]["_id"] == items[b]["_id"];
      }
    }
  }

  /** With unique ids, a delete removes exactly the documents carrying that
      id and keeps every other one; a second delete of the same id then
      finds nothing and reports a count of 0. */
  lemma DeleteRemovesOnlyThatId(items: Collection, id: string)
    requires UniqueIds(items)
    ensures var after := Delete(items, id, false).items;
            && (forall d :: d in after <==> d in items && !HasId(d, id))
            && Delete(after, id, false).reply == Reply(200, Object(DeleteResult(0)))
  {
    var after := Delete(items, id, false).items;
    match FindIndex(items, id)
    case None =>
    case Some(i) =>
      forall d ensures d in after <==> d in items && !HasId(d, id) {
        if d in after {
          var j :| 0 <= j < |after| && after[j] == d;
          var k := if j < i then j else j + 1;
          assert after[j] == items[k];
          assert items[k]["_id"] != items[i]["_id"];
        }
        if d in items && !HasId(d, id) {
          var k :| 0 <= k < |items| && items[k] == d;
          assert k != i;
          if k < i { assert after[k] == d; } else { assert after[k - 1] == d; }
        }
      }
      forall j | 0 <= j < |after| ensures !HasId(after[j], id) {
        assert after[j] in after;
      }
  }
}

=== FILE: text.dfy ===
/** The JavaScript string operations the modelled code relies on, over
    `string` (a sequence of characters):
    `split` on a one-character separator, `startsWith`, `includes`,
    `toLowerCase` (ASCII letters) and `trim`. */
module Text {

  /** Index of the first occurrence of `c` in `s`. */
  function IndexOf(s: string, c: char): (i: nat)
    requires c in s
    ensures i < |s| && s[i] == c && c !in s[..i]
  {
    if s[0] == c then 0 else 1 + IndexOf(s[1..], c)
  }

  /** The pieces joined back together with `sep` between consecutive ones
      (JavaScript's `pieces.join(sep)`). */
  function Join(pieces: seq<string>, sep: char): string
    requires |pieces| >= 1
  {
    if |pieces| == 1 then pieces[0] else pieces[0] + [sep] + Join(pieces[1..], sep)
  }

  /** JavaScript's `s.split(sep)` for a one-character separator: every
      occurrence of `sep` cuts, so `k` occurrences give `k + 1` pieces,
      some of which may be empty (`"".split(" ")` is `[""]`). */
  function Split(s: string, sep: char): (pieces: seq<string>)
    ensures |pieces| >= 1
    ensures forall i :: 0 <= i < |pieces| ==> sep !in pieces[i]
    ensures Join(pieces, sep) == s
    decreases |s|
  {
    if sep !in s then [s]
    else
      var i := IndexOf(s, sep);
      assert s == s[..i] + [sep] + s[i + 1..];
      [s[..i]] + Split(s[i + 1..], sep)
  }

  /** Cutting at the first separator: a piece free of `sep` followed by the
      separator splits off as the first piece. */
  lemma SplitAfterPiece(a: string, sep: char, b: string)
    requires sep !in a
    ensures Split(a + [sep] + b, sep) == [a] + Split(b, sep)
  {
    var s := a + [sep] + b;
    assert s[|a|] == sep;
    var i := IndexOf(s, sep);
    assert s[..i] == a;
    assert s[i + 1..] == b;
  }

  /** A separator-free `b` followed by nothing or by a separator is the first
      piece. */
  lemma FirstPiece(b: string, sep: char, rest: string)
    requires sep !in b
    requires rest == [] || rest[0] == sep
    ensures Split(b + rest, sep)[0] == b
  {
    if rest == [] {
      assert b + rest == b;
    } else {
      assert b + rest == b + [sep] + rest[1..];
      SplitAfterPiece(b, sep, rest[1..]);
    }
  }

  /** The piece after the first separator is `b` when `b` holds no separator
      and is followed by nothing or by another separator. */
  lemma SecondPiece(a: string, sep: char, b: string, rest: string)
    requires sep !in a && sep !in b
    requires rest == [] || rest[0] == sep
    ensures |Split(a + [sep] + b + rest, sep)| >= 2
    ensures Split(a + [sep] + b + rest, sep)[1] == b
  {
    var tail := b + rest;
    assert a + [sep] + b + rest == a + [sep] + tail;
    SplitAfterPiece(a, sep, tail);
    FirstPiece(b, sep, rest);
  }

  /** Split is the inverse of Join on pieces that do not contain the separator. */
  lemma {:induction false} SplitJoin(pieces: seq<string>, sep: char)
    requires |pieces| >= 1
    requires forall i :: 0 <= i < |pieces| ==> sep !in pieces[i]
    ensures Split(Join(pieces, sep), sep) == pieces
    decreases |pieces|
  {
    if |pieces| == 1 {
      assert Join(pieces, sep) == pieces[0];
    } else {
      var rest := pieces[1..];
      assert forall i :: 0 <= i < |rest| ==> sep !in rest[i] by {
        forall i | 0 <= i < |rest| ensures sep !in rest[i] {
          assert rest[i] == pieces[i + 1];
        }
      }
      SplitJoin(rest, sep);
      SplitAfterPiece(pieces[0], sep, Join(rest, sep));
      assert [pieces[0]] + rest == pieces;
    }
  }

  /** JavaScript's `s.startsWith(prefix)`. */
  predicate StartsWith(s: string, prefix: string) {
    |prefix| <= |s| && s[..|prefix|] == prefix
  }

  /** JavaScript's `s.replace(pat, rep)` with a string pattern: only the
      first occurrence of `pat` is replaced. */
  function ReplaceFirst(s: string, pat: string, rep: string): (r: string)
    ensures StartsWith(s, pat) ==> r == rep + s[|pat|..]
    ensures !Contains(s, pat) ==> r == s
    decreases |s|
  {
    if StartsWith(s, pat) then
      assert OccursAt(s, pat, 0);
      rep + s[|pat|..]
    else if |s| == 0 then s
    else
      assert !Contains(s, pat) ==> !Contains(s[1..], pat) by {
        if Contains(s[1..], pat) {
          var i :| 0 <= i <= |s[1..]| - |pat| && OccursAt(s[1..], pat, i);
          assert s[i + 1..i + 1 + |pat|] == s[1..][i..i + |pat|];
          assert OccursAt(s, pat, i + 1);
        }
      }
      [s[0]] + ReplaceFirst(s[1..], pat, rep)
  }

  /** JavaScript's `s.includes(sub)`: `sub` occurs at some position of `s`. */
  predicate Contains(s: string, sub: string) {
    exists i :: 0 <= i <= |s| - |sub| && OccursAt(s, sub, i)
  }

  /** `sub` occurs in `s` starting at position `i`. */
  predicate OccursAt(s: string, sub: string, i: nat) {
    i + |sub| <= |s| && s[i..i + |sub|] == sub
  }

  /** `toLowerCase` on one code unit, for the ASCII letters. */
  function LowerChar(c: char): char {
    if 'A' <= c <= 'Z' then (c as int + 32) as char else c
  }

  /** JavaScript's `s.toLowerCase()` restricted to ASCII letters: every
      upper-case ASCII letter is mapped to its lower-case form and every
      other code unit is kept. */
  function ToLower(s: string): (r: string)
    ensures |r| == |s|
    ensures forall i :: 0 <= i < |s| ==> r[i] == LowerChar(s[i])
  {
    seq(|s|, i requires 0 <= i < |s| => LowerChar(s[i]))
  }

  /** The code units JavaScript's `trim` removes: the ECMAScript WhiteSpace
      and LineTerminator characters. */
  predicate IsWhitespace(c: char) {
    || c == '\t' || c == '\n' || c == '\U{000B}' || c == '\U{000C}' || c == '\r'
    || c == ' ' || c == '\U{00A0}' || c == '\U{1680}'
    || ('\U{2000}' <= c <= '\U{200A}')
    || c == '\U{2028}' || c == '\U{2029}' || c == '\U{202F}' || c == '\U{205F}'
    || c == '\U{3000}' || c == '\U{FEFF}'
  }

  /** `s` without its leading whitespace. */
  function TrimStart(s: string): (r: string)
    ensures |r| <= |s| && r == s[|s| - |r|..]
    ensures r == [] || !IsWhitespace(r[0])
    ensures forall i :: 0 <= i < |s| - |r| ==> IsWhitespace(s[i])
  {
    if |s| > 0 && IsWhitespace(s[0]) then
      var r := TrimStart(s[1..]);
      assert forall i :: 1 <= i < |s| - |r| ==> s[i] == s[1..][i - 1];
      r
    else s
  }

  /** `s` without its trailing whitespace. */
  function TrimEnd(s: string): (r: string)
    ensures |r| <= |s| && r == s[..|r|]
    ensures r == [] || !IsWhitespace(r[|r| - 1])
    ensures forall i :: |r| <= i < |s| ==> IsWhitespace(s[i])
  {
    if |s| > 0 && IsWhitespace(s[|s| - 1]) then
      var r := TrimEnd(s[..|s| - 1]);
      assert forall i :: |r| <= i < |s| - 1 ==> s[i] == s[..|s| - 1][i];
      r
    else s
  }

  /** JavaScript's `s.trim()`: the longest infix of `s` that neither starts
      nor ends with whitespace, with everything cut off being whitespace. */
  function Trim(s: string): (r: string)
    ensures r == [] || (!IsWhitespace(r[0]) && !IsWhitespace(r[|r| - 1]))
    ensures LeadingBlanks(s) + |r| <= |s| && r == s[LeadingBlanks(s)..LeadingBlanks(s) + |r|]
    ensures forall i :: 0 <= i < LeadingBlanks(s) ==> IsWhitespace(s[i])
    ensures forall i :: LeadingBlanks(s) + |r| <= i < |s| ==> IsWhitespace(s[i])
  {
    var t := TrimStart(s);
    var r := TrimEnd(t);
    TrimParts(s, t, r);
    r
  }

  /** Trimming the front and then the back of `s` leaves an infix of `s`
      with only whitespace cut off at either side. */
  lemma TrimParts(s: string, t: string, r: string)
    requires |t| <= |s| && t == s[|s| - |t|..]
    requires forall i :: 0 <= i < |s| - |t| ==> IsWhitespace(s[i])
    requires t == [] || !IsWhitespace(t[0])
    requires |r| <= |t| && r == t[..|r|]
    requires forall i :: |r| <= i < |t| ==> IsWhitespace(t[i])
    ensures r == [] || !IsWhitespace(r[0])
    ensures r == s[|s| - |t|..|s| - |t| + |r|]
    ensures forall i :: |s| - |t| + |r| <= i < |s| ==> IsWhitespace(s[i])
  {
    var lead := |s| - |t|;
    assert r != [] ==> r[0] == t[0];
    forall i | lead + |r| <= i < |s| ensures IsWhitespace(s[i]) {
      assert s[i] == t[i - lead];
    }
  }

  /** How many whitespace characters `trim` cuts from the front of `s`. */
  function LeadingBlanks(s: string): nat {
    |s| - |TrimStart(s)|
  }

  /** Trimming a second time changes nothing. */
  lemma TrimIdempotent(s: string)
    ensures Trim(Trim(s)) == Trim(s)
  {
    var r := Trim(s);
    assert TrimStart(r) == r;
    assert TrimEnd(r) == r;
  }

  /** A string trims to the empty string exactly when all of it is whitespace. */
  lemma TrimEmptyIffBlank(s: string)
    ensures Trim(s) == [] <==> forall i :: 0 <= i < |s| ==> IsWhitespace(s[i])
  {
    var t := TrimStart(s);
    if Trim(s) == [] {
      assert t == [];
    } else {
      var r := Trim(s);
      assert s[LeadingBlanks(s)] == r[0];
    }
  }
}
